=== FILE: README.md ===
# appendonly in Dafny

A model of the append-only structures of the `appendonly` package, with
proofs about them:

- `_Layer`: a bounded append buffer tagged with a generation.
- `AppendStack`: a newest-first window of at most `max_layers` such layers.
  A push rolls over into a new generation when the front layer is full and
  hands the layers that fall off the back to an optional pruner. It also
  has `newer(gen, index)` cursors, a snapshot (`__getstate__` /
  `__setstate__`) and a three-way conflict merge.
- `_ArchiveLayer` and `Archive`: a prepend-only chain of layers that
  receives pruned layers. It has its own conflict merge.

Each Python object becomes an immutable Dafny value. Every operation that
raises in Python returns a `Result` instead. `Failure(LayerFull)` is
`_LayerFull`, `Failure(IndexOutOfRange)` is the `IndexError` of indexing
an empty list, `Failure(StaleGeneration)` is the `ValueError` of
`addLayer`, and `Failure(Conflict(reason))` is `ConflictError`.

Modules, one per file:

| file | module | models |
|---|---|---|
| errors.dfy | `Errors` | the exceptions, as a `Result` type |
| sequences.dfy | `Sequences` | generic sequence helpers: `TakeWhile`, `Filter`, `Reverse`, suffixes |
| layers.dfy | `Layers` | `_LayerBase` and `_Layer`, and iteration over a newest-first list of layers |
| appendstack.dfy | `AppendStacks` | `AppendStack`: constructor, iteration, `newer`, `push`, snapshots |
| merge.dfy | `StackMerge` | `AppendStack._p_resolveConflict` |
| merge_appends.dfy | `MergeOfAppends` | the merge applied to two histories that only pushed |
| pushhistory.dfy | `PushHistory` | the closed form of the state after n pushes from the constructor |
| archive.dfy | `Archives` | `_ArchiveLayer.fromLayer` and `Archive` |
| scenarios.dfy | `Scenarios` | the concrete situations of the package's unit tests, proved for all item values |

The merge follows the code, not the design comment above it. The comment
says the non-layer attributes of O, C and N must all agree. The code
compares O's `max_layers` with N's twice and never reads C's (see
Findings). The replay loop also opens a new layer only when the front holds
*exactly* `max_length` items (`==`), while `push` rolls over at `>=`. The
model keeps both tests as written; `StackMerge.ReplayOverfullFront` and
`StackMerge.PushOverfullFront` show them disagreeing on a front that is
already over the limit.

## Model

| member | source | states |
|---|---|---|
| Layers.Push | appendonly/__init__.py:61-64 | fails with `LayerFull` exactly when the layer already holds `max_length` or more items; otherwise the item is appended after the old items, and capacity and generation are unchanged |
| Layers.PushAll | appendonly/__init__.py:125-128 | pushing a list item by item succeeds exactly when it is empty or fits in the remaining room, and then the layer holds the old items followed by the list |
| Layers.Iterate | appendonly/__init__.py:32-36 | `__iter__` yields, as its j-th pair, index `len - 1 - j` with the item stored there: every item once, newest first |
| Layers.Newer | appendonly/__init__.py:38-47 | `newer(latest)` is a prefix of the iteration, every index in it is above `latest`, and its length is the number of indices above `latest` |
| Layers.NewerIsFilter | appendonly/__init__.py:38-47 | the early-breaking loop of `newer` yields exactly the pairs of the iteration whose index is above `latest` |
| Layers.EntriesReverseContents | appendonly/__init__.py:86-91 | iterating a newest-first list of layers yields the items in exactly the reverse of their append order |
| Layers.EntriesDescending | appendonly/__init__.py:74-77 | when generations strictly decrease front to back, the (generation, index) keys strictly decrease along the iteration |
| AppendStacks.Init | appendonly/__init__.py:81-84 | the constructor keeps both limits and holds one empty layer of generation 0; the result satisfies the stack invariant and iterates to nothing |
| AppendStacks.Iterate | appendonly/__init__.py:86-91 | iteration walks the layers front to back, each from its newest item down, so the items come out in exactly the reverse of their append order, opening with the front layer's newest item under its generation and index; every entry is tagged with its layer's generation and its index there, as the front layer's own pairs followed by the iteration of the layers behind it, and nothing when there are no layers |
| AppendStacks.Newer | appendonly/__init__.py:93-99 | `newer(gen, index)` is a prefix of the iteration, every key in it is above the cursor, and it stops at the first key that is not |
| AppendStacks.NewerIsFilter | appendonly/__init__.py:93-99 | on a stack satisfying the invariant, `newer` is exactly the entries whose (generation, index) is above the cursor in tuple order |
| AppendStacks.IterationKeysDescending | appendonly/__init__.py:74-77 | the documented invariant: the (generation, index) keys strictly decrease along the iteration, so they increase in append order |
| AppendStacks.Push | appendonly/__init__.py:101-116 | fails only on an empty layer list (`IndexError`) or when a full front must roll over into a zero-capacity layer (`_LayerFull`); otherwise the kept layers followed by the pruned ones are the old layers with the item landed in the front or in a new front one generation newer, and exactly `min(max_layers, ...)` layers are kept |
| AppendStacks.PushKeepsValid | appendonly/__init__.py:101-116 | a valid stack with positive limits accepts every push and stays valid; generations never move backwards; at most one layer is pruned, and only when the window was full, and it is the old back layer |
| AppendStacks.PushConserves | appendonly/__init__.py:101-116 | one push loses nothing: the pruned items followed by the kept items are the old items followed by the pushed one |
| AppendStacks.PushAllKeepsValid | appendonly/__init__.py:101-116 | any run of pushes on a valid stack with positive `max_layers` and `max_length` succeeds, keeps the invariant and the limits, and never moves the front or back generation backwards |
| AppendStacks.PushAllConserves | appendonly/__init__.py:113-116 | on a valid stack with positive `max_layers` and `max_length`, across any run of pushes, the items handed to the pruner in call order, followed by the items still held, are the original items followed by the pushed ones |
| AppendStacks.PushAllLast | appendonly/__init__.py:101-116 | the last of several pushes on a valid stack with positive `max_layers` and `max_length` is one valid push step after the others, and the pruned lists concatenate |
| AppendStacks.GetState | appendonly/__init__.py:118-120 | the snapshot holds both limits and, front to back, every layer's generation with its items |
| AppendStacks.Rebuild | appendonly/__init__.py:124-129 | the `__setstate__` loop succeeds exactly when no layer has more than `max_length` items, and it rebuilds layers with exactly the given (generation, items) and the stack's capacity |
| AppendStacks.SetState | appendonly/__init__.py:122-129 | `__setstate__` fails with `LayerFull` exactly when some layer overflows; otherwise `__getstate__` of the result gives the same snapshot back |
| AppendStacks.StateRoundTrip | appendonly/__init__.py:118-129 | `__setstate__(__getstate__())` restores the same stack whenever every layer respects its capacity |
| StackMerge.Suffix | appendonly/__init__.py:176 | Python's `items[start:]`: what follows the first `start` items, or nothing when `start` is past the end |
| StackMerge.Delta | appendonly/__init__.py:171-178 | the loop stops at the first layer older than O's front generation (nothing, if that is N's front); on contiguous generations the delta is the tail of N's layer of O's front generation past O's item count, followed by the items of every newer layer, oldest first |
| StackMerge.ReplayOne | appendonly/__init__.py:181-184 | one turn of the replay loop: when the front holds exactly `max_length` items, a new front one generation newer holding only the item goes in front of the unchanged layers; otherwise the item is appended to the front, which keeps its generation, and the layers behind are unchanged; either way the contents grow by exactly the item |
| StackMerge.Replay | appendonly/__init__.py:180-184 | replaying a delta onto C's layers yields contents equal to C's followed by the delta; C's layers behind its front are untouched, C's front keeps its generation and its old items as a prefix, and each layer put in front is one generation newer than the one behind it |
| StackMerge.ReplayOverfullFront | appendonly/__init__.py:182-184 | a front of three items with `max_length` 2 is not `==`-full, so the replayed item joins it and no layer is opened |
| StackMerge.PushOverfullFront | appendonly/__init__.py:106-112 | `push` on that same front finds it `>=`-full and opens a new front of generation 1 holding the item |
| StackMerge.ResolveConflict | appendonly/__init__.py:148-186 | one `ensures` per `ConflictError` and `IndexError`, in the source's order of checks; on success the result has C's limits, and its layers are exactly the first `min(max_layers, replayed layers)` layers of the replay of N's delta onto C, with their replayed generations; its contents are a trailing part of C's contents followed by N's delta against O, and exactly those when the cut removes nothing |
| StackMerge.ResolveConflictChecked | appendonly/__init__.py:154 | the corrected `max_layers` check: it fails unless O, C and N all agree, and otherwise behaves as the merge |
| StackMerge.CommittedMaxLayersIgnored | appendonly/__init__.py:154 | a committed `max_layers` of 3 against 2 in O and N passes the merge as written, and C's value wins; the corrected merge reports the conflict |
| MergeOfAppends.DeltaOfPushes | appendonly/__init__.py:171-178 | if N is O after pushes that never pruned O's front generation, the delta loop recovers exactly the pushed items, in order |
| MergeOfAppends.ReplayIsPush | appendonly/__init__.py:180-186 | replaying items onto a valid stack's snapshot and cutting to `max_layers` gives the snapshot of pushing them one by one |
| MergeOfAppends.MergeOfAppends | appendonly/__init__.py:148-186 | when C and N both come from O by pushes and neither has pruned O's front generation, the merge succeeds (as written and as corrected), and it equals C with N's pushes applied |
| PushHistory.PushesFromInit | appendonly/__init__.py:101-116 | from the constructor, pushes leave exactly the newest `min(K, G + 1)` blocks of `L` items in the window and have handed exactly the older blocks to the pruner, in order |
| PushHistory.FrontGenerationIsCeiling | appendonly/__init__.py:107-112 | after n >= 1 pushes into layers of `L`, the front generation is `ceil(n / L) - 1` |
| PushHistory.EvictedBlocks | appendonly/__init__.py:113-116 | the j-th pruner call carries generation j and items `xs[j*L .. (j+1)*L]` |
| PushHistory.PushCounts | appendonly/__init__.py:101-116 | after n >= 1 pushes: `min(K, G + 1)` layers, front generation `G = (n - 1) / L`, `max(0, G + 1 - K)` pruner calls with consecutive full blocks |
| Archives.FromLayer | appendonly/__init__.py:198-202 | the copy keeps the capacity and the generation and iterates exactly as the original |
| Archives.FromLayerIterates | appendonly/__init__.py:198-202 | `newer` and the (generation, items) state of the copy are those of the original |
| Archives.Empty | appendonly/__init__.py:208-209 | a new archive has generation -1 and iterates to nothing |
| Archives.AddLayer | appendonly/__init__.py:218-225 | fails with `StaleGeneration` exactly when the generation is not newer; otherwise a new head of the default capacity 100, generation `g` and the given items is prepended, the old chain follows unchanged, iteration yields the new layer's entries before the old ones, and the contents grow by the items |
| Archives.AddLayerKeepsValid | appendonly/__init__.py:218-225 | `addLayer` keeps generations strictly decreasing along the chain, with the archive's generation the head's |
| Archives.Iterate | appendonly/__init__.py:211-216 | iteration follows the chain from the head: an empty archive yields nothing, otherwise the head layer's pairs, tagged with its generation, come first and are followed by the iteration of the layers behind it; the items come out in exactly the reverse of the order they were stored, and the last entry is the oldest item of the last layer at index 0 |
| Archives.IterationKeysDescending | appendonly/__init__.py:211-216 | on a valid archive the (generation, index) keys strictly decrease along the iteration, and no entry carries a generation above the archive's `_generation` |
| Archives.AddLayersIncreasing | appendonly/__init__.py:218-225 | layers handed over in increasing generation order, starting above the archive's, are all accepted, and the archive then holds its old contents followed by theirs |
| Archives.ResolveConflict | appendonly/__init__.py:239-242 | the merge succeeds exactly when C and N have the same generation, and then returns C unchanged; otherwise it reports conflicting generations |
| Archives.ConcurrentAdds | appendonly/__init__.py:239-242 | two transactions that each added one layer to the same archive reconcile exactly when they added the same generation, and the result is the committed archive |
| Scenarios.LayerOverflow | appendonly/tests.py:99-107 | a layer of two accepts two pushes, refuses the third with `LayerFull`, and iterates (1, b), (0, a) |
| Scenarios.LayerIterateAndNewer | appendonly/tests.py:41-97 | three pushes iterate (2, c), (1, b), (0, a); `newer(0)` stops before index 0; one push succeeds and iterates as (0, a); empty and one-item layers have nothing newer |
| Scenarios.StackDefaults | appendonly/tests.py:129-148 | defaults of 10 layers and 100 items, an empty iteration and an empty `newer`; its snapshot clause is the getstate test's, stated with its own citation by `Scenarios.GetStateEmpty` |
| Scenarios.StackNewerMiss | appendonly/tests.py:150-153 | after one push into a default stack, `newer(0, 0)` is empty |
| Scenarios.StackPushOne | appendonly/tests.py:177-182 | one push into a default stack leaves one layer and iterates as (0, 0, a) |
| Scenarios.StackAcrossLayers | appendonly/tests.py:184-196 | three pushes into layers of two: two layers, generations 1 and 0, iteration (1,0,c), (0,1,b), (0,0,a); its `newer(0, 0)` clause, which stops before (0, 0), is the case of test_newer_hit_across_layers (tests.py lines 166-175) |
| Scenarios.StackNewerHit | appendonly/tests.py:155-164 | three pushes into one default layer: `newer(0, 0)` yields (0,2,c), (0,1,b) |
| Scenarios.TrimmingLayers | appendonly/tests.py:198-235 | 1001 pushes with four layers of 100: generations 10, 9, 8 and 7 kept, front to back, 301 entries from (10,0,1000) to (7,0,700), seven pruner calls with generation j holding `range(100j, 100j+100)` |
| Scenarios.GetStateEmpty | appendonly/tests.py:236-238 | a default stack's snapshot is `(10, 100, [(0, [])])`, and restoring it gives the same stack back |
| Scenarios.GetStateFilled | appendonly/tests.py:241-246 | ten pushes with two layers of three leave `(2, 3, [(3, [9]), (2, [6, 7, 8])])` |
| Scenarios.SetStateFilled | appendonly/tests.py:248-263 | that snapshot rebuilds a stack with limits 2 and 3 that iterates (3,0,9), (2,2,8), (2,1,7), (2,0,6) |
| Scenarios.MergeConflicts | appendonly/tests.py:265-359 | the four conflicting merges of the tests fail, each with its own reason |
| Scenarios.MergeNoAddedLayers | appendonly/tests.py:361-388 | the merge of a committed `[9, 10]` and a new `[9, 11]` over `[9]` is `[9, 10, 11]` |
| Scenarios.MergeAddedCommittedLayer | appendonly/tests.py:390-417 | N's 13 lands in C's new generation 4 after 12 |
| Scenarios.MergeAddedNewLayer | appendonly/tests.py:419-446 | N's 11..14 fill C's generation 3 and open generation 4, and the oldest layer is cut off |
| Scenarios.ArchiveIteration | appendonly/tests.py:527-548 | layers 0 and 1 iterate (1,1), (1,0), (0,2), (0,1), (0,0), the items in reverse order of creation |
| Scenarios.ArchiveAddOlder | appendonly/tests.py:550-553 | adding generation 0 twice is refused |
| Scenarios.ArchiveMerges | appendonly/tests.py:555-574 | the same generation keeps the committed state; different generations conflict |

## Left out

- `Accumulator`: the package's tests exercise it, but `appendonly/__init__.py` holds no implementation of it, so there is nothing to model.
- Persistence: the `Persistent` base class, `_p_changed`, and the store that calls `_p_resolveConflict`. The merges are modelled as pure functions of the three states.
- `appendonly/interfaces.py` and the `implements` declaration: they declare interfaces and carry no behaviour.
- `setup.py`: packaging, which reads files and has no logic of the structures.
- The pruner callback is not called. `push` returns the pruned layers in call order, and the pruner would be called with `(generation, items)` of each, in that order.
- Object identity: `x[:]` copies, `copy._stack[:] = items` and the sharing of item objects between a layer and its archive copy. Dafny values are immutable, so copies and originals cannot be told apart.
- Generators are modelled as the finite sequences they yield. Laziness and interleaving with mutation are not modelled.
- `max_layers` and `max_length` are `nat`. Negative limits, which Python would accept and slice with from the end, are not modelled.
- The Python 2 `long` literals (`0L`, `1L`) are unbounded integers, as Dafny's `int`.
- `AppendStacks.SetState`: a failing `__setstate__` leaves the object partly assigned in Python; the model returns only the failure.
- `AppendStacks.PushAll`: a helper for a run of pushes with no contract of its own. Its properties are the lemmas `PushAllKeepsValid`, `PushAllConserves` and `PushAllLast`.
- AppendStacks.PushKeepsValid: requires `max_layers > 0` and `max_length > 0`. With `max_layers == 0` the slice `layers[:0]` empties the stack and the next push raises `IndexError`; with `max_length == 0` a push onto a full front raises `_LayerFull`. `AppendStacks.Push` models both failures, but the invariant lemmas do not cover these configurations.
- AppendStacks.PushAllKeepsValid and AppendStacks.PushAllLast: both take the same `max_layers > 0` and `max_length > 0` requirement as `PushKeepsValid`. With `max_layers == 0` the empty-layered stack is still valid, but the second push of a run raises `IndexError`.
- AppendStacks.PushAllConserves: requires a valid stack with positive limits. A stack restored by `__setstate__` can hold more than `max_layers` layers. Its first push then prunes all the extra layers at once, walking `layers[max:]` from the newest, so the pruner sees them in the reverse of the order they were filled and the append-order statement does not hold for that push (`appendonly/__init__.py:113-116`).
- `Archives.ResolveConflict`: the `_head` payload is an opaque value, and a state dictionary without a `_generation` key (a `KeyError`) is not modelled.
- `ConflictError` messages are modelled as `ConflictReason` values, one per message.

## Findings

| source | as written | input that shows it | evidently intended | confidence | as-written member | corrected member |
|---|---|---|---|---|---|---|
| appendonly/__init__.py:154 | `if not o_m_layers == n_m_layers == n_m_layers` compares O's `max_layers` with N's twice and never reads C's | O and N with `max_layers` 2 and C with 3, all with `max_length` 3 and layers `[(0, [1])]`: no conflict is raised and the merge returns C's 3 | all three `max_layers` agree, as the comment above the merge and the `max_length` check on the next line do | medium, not executed | StackMerge.CommittedMaxLayersIgnored | StackMerge.ResolveConflictChecked |

=== FILE: appendstack.dfy ===
/** `AppendStack`: a newest-first window of layers with rollover, pruning,
    iteration, `newer` and the snapshot hooks. */
module AppendStacks {
  import opened Errors
  import opened Sequences
  import opened Layers

  /** The constructor default for `max_layers`. */
  const DefaultMaxLayers: nat := 10

  datatype Stack<T> = Stack(maxLayers: nat, maxLength: nat, layers: seq<Layer<T>>)

  /** The outcome of one or more pushes: the new stack and the evicted
      layers, in the order the pruner is called with them. */
  datatype Pushed<T> = Pushed(stack: Stack<T>, pruned: seq<Layer<T>>)

  /** What `__getstate__` returns: (max_layers, max_length, [(generation, items), ...]). */
  datatype Snapshot<T> = Snapshot(maxLayers: nat, maxLength: nat, layers: seq<LayerState<T>>)

  /** The most layers a stack ever holds: `max_layers`, except that the
      constructor's single layer is there even when `max_layers` is 0. */
  function Cap(maxLayers: nat): nat {
    if maxLayers == 0 then 1 else maxLayers
  }

  /** Every layer has the stack's capacity and respects it. */
  ghost predicate Fits<T>(s: Stack<T>) {
    forall j :: 0 <= j < |s.layers| ==>
      s.layers[j].maxLength == s.maxLength && |s.layers[j].items| <= s.maxLength
  }

  /** The invariant of every stack built by the constructor and `push`. */
  ghost predicate Valid<T>(s: Stack<T>) {
    && |s.layers| <= Cap(s.maxLayers)
    && (s.maxLayers > 0 ==> |s.layers| > 0)
    && Fits(s)
    // generations drop by exactly one from front to back and stay >= 0
    && (forall j :: 0 <= j < |s.layers| ==> s.layers[j].generation == s.layers[0].generation - j)
    && (forall j :: 0 <= j < |s.layers| ==> s.layers[j].generation >= 0)
    // every layer behind the front is full
    && (forall j :: 1 <= j < |s.layers| ==> |s.layers[j].items| == s.maxLength)
  }

  /** `AppendStack.__init__`: one empty layer at generation 0. */
  function Init<T>(maxLayers: nat, maxLength: nat): (s: Stack<T>)
    ensures Valid(s)
    ensures s.maxLayers == maxLayers && s.maxLength == maxLength
    ensures |s.layers| == 1 && s.layers[0].generation == 0
    ensures Iterate(s) == []
  {
    Stack(maxLayers, maxLength, [Layer(maxLength, 0, [])])
  }

  /** `AppendStack.__iter__`: the layers front to back, each from its
      newest item down, so the items come out in reverse append order,
      opening with the newest item of the front layer. */
  function Iterate<T>(s: Stack<T>): (r: seq<Entry<T>>)
    ensures ItemsOf(r) == Reverse(Contents(States(s.layers)))
    ensures |s.layers| > 0 && |s.layers[0].items| > 0 ==>
              && |r| > 0
              && r[0] == Entry(s.layers[0].generation, |s.layers[0].items| - 1,
                               s.layers[0].items[|s.layers[0].items| - 1])
    ensures |s.layers| == 0 ==> r == []
    ensures |s.layers| > 0 ==>
              r == Tagged(s.layers[0].generation, Layers.Iterate(s.layers[0].items))
                   + Entries(States(s.layers[1..]))
  {
    var fs := States(s.layers);
    EntriesReverseContents(fs);
    if |s.layers| > 0 then
      StatesTail(s.layers);
      Entries(fs)
    else
      Entries(fs)
  }

  function CursorAbove<T>(latestGen: int, latestIndex: int): Entry<T> -> bool {
    (e: Entry<T>) => KeyAbove(e.generation, e.index, latestGen, latestIndex)
  }

  /** `AppendStack.newer`: the iteration, cut off at the first entry whose
      (generation, index) is at or below the cursor. */
  function Newer<T>(s: Stack<T>, latestGen: int, latestIndex: int): (r: seq<Entry<T>>)
    ensures r <= Iterate(s)
    ensures forall j :: 0 <= j < |r| ==>
              KeyAbove(r[j].generation, r[j].index, latestGen, latestIndex)
    ensures |r| < |Iterate(s)| ==>
              !KeyAbove(Iterate(s)[|r|].generation, Iterate(s)[|r|].index, latestGen, latestIndex)
  {
    TakeWhile(Iterate(s), CursorAbove(latestGen, latestIndex))
  }

  /** A valid stack's generations decrease strictly from front to back. */
  lemma ValidGenerationsDescending<T>(s: Stack<T>)
    requires Valid(s)
    ensures GenerationsDescending(States(s.layers))
  {
  }

  /** The `(generation, index)` keys strictly decrease along the iteration,
      so they strictly increase in append order. */
  lemma IterationKeysDescending<T>(s: Stack<T>)
    requires Valid(s)
    ensures KeysDescending(Iterate(s))
  {
    ValidGenerationsDescending(s);
    EntriesDescending(States(s.layers));
  }

  /** On a valid stack, `newer` is exactly the filter of the iteration by
      "key above the cursor". */
  lemma NewerIsFilter<T>(s: Stack<T>, latestGen: int, latestIndex: int)
    requires Valid(s)
    ensures Newer(s, latestGen, latestIndex) == Filter(Iterate(s), CursorAbove(latestGen, latestIndex))
  {
    var it := Iterate(s);
    var p := CursorAbove<T>(latestGen, latestIndex);
    IterationKeysDescending(s);
    assert StaysFalse(it, p) by {
      forall i, j | 0 <= i < j < |it| && p(it[j])
        ensures p(it[i])
      {
        assert KeyAbove(it[i].generation, it[i].index, it[j].generation, it[j].index);
      }
    }
    TakeWhileIsFilter(it, p);
  }

  /** The layer list after `obj` lands: in the front layer, or in a new
      front layer one generation newer when the front is full. */
  function Grow<T>(layers: seq<Layer<T>>, maxLength: nat, x: T): Result<seq<Layer<T>>>
    requires |layers| > 0
  {
    match Layers.Push(layers[0], x)
    case Success(front) => Success([front] + layers[1..])
    case Failure(_) =>
      var front :- Layers.Push(Layer(maxLength, layers[0].generation + 1, []), x);
      Success([front] + layers)
  }

  /** `kept` followed by `pruned` is the layer list `ls` after `x` has
      landed: in the front layer, or in a new front layer one generation
      newer when the front is full. */
  ghost predicate Lands<T>(ls: seq<Layer<T>>, maxLength: nat, x: T, kept: seq<Layer<T>>, pruned: seq<Layer<T>>)
    requires |ls| > 0
  {
    && (Full(ls[0]) ==> kept + pruned == [Layer(maxLength, ls[0].generation + 1, [x])] + ls)
    && (!Full(ls[0]) ==> kept + pruned == [ls[0].(items := ls[0].items + [x])] + ls[1..])
  }

  /** `AppendStack.push`: the item goes into the front layer, or into a new
      front layer when that is full; the layer list is then split at
      `max_layers` into the kept layers and the pruned ones. */
  function Push<T>(s: Stack<T>, x: T): (r: Result<Pushed<T>>)
    ensures r.Failure? <==> |s.layers| == 0 || (Full(s.layers[0]) && s.maxLength == 0)
    ensures |s.layers| == 0 ==> r == Failure(IndexOutOfRange)
    ensures |s.layers| > 0 && r.Failure? ==> r.error == LayerFull
    ensures r.Success? ==>
              r.value.stack.maxLayers == s.maxLayers && r.value.stack.maxLength == s.maxLength
    ensures r.Success? ==> Lands(s.layers, s.maxLength, x, r.value.stack.layers, r.value.pruned)
    ensures r.Success? ==>
              |r.value.stack.layers|
              == Min(s.maxLayers, |s.layers| + if Full(s.layers[0]) then 1 else 0)
  {
    if |s.layers| == 0 then Failure(IndexOutOfRange)
    else
      var grown :- Grow(s.layers, s.maxLength, x);
      var keep := Min(s.maxLayers, |grown|);
      assert grown[..keep] + grown[keep..] == grown;
      Success(Pushed(s.(layers := grown[..keep]), grown[keep..]))
  }

  /** Pushing `xs` in order, collecting every pruner call. */
  function PushAll<T>(s: Stack<T>, xs: seq<T>): (r: Result<Pushed<T>>)
    decreases |xs|
  {
    if |xs| == 0 then Success(Pushed(s, []))
    else
      var before :- PushAll(s, xs[..|xs| - 1]);
      var last :- Push(before.stack, xs[|xs| - 1]);
      Success(Pushed(last.stack, before.pruned + last.pruned))
  }

  /** `PushAll` on a non-empty list is `PushAll` on all but the last item
      followed by one `Push`. */
  lemma PushAllSnoc<T>(s: Stack<T>, xs: seq<T>, x: T)
    requires PushAll(s, xs).Success?
    requires Push(PushAll(s, xs).value.stack, x).Success?
    ensures var before := PushAll(s, xs).value;
            var last := Push(before.stack, x).value;
            PushAll(s, xs + [x]) == Success(Pushed(last.stack, before.pruned + last.pruned))
  {
    assert (xs + [x])[..|xs + [x]| - 1] == xs;
  }

  /** A valid stack with room for at least one layer of at least one item
      accepts every push, keeps its invariant, and prunes at most its own
      oldest layer, and only once the window is full. */
  lemma PushKeepsValid<T>(s: Stack<T>, x: T)
    requires Valid(s) && s.maxLayers > 0 && s.maxLength > 0
    ensures Push(s, x).Success?
    ensures var p := Push(s, x).value;
            && Valid(p.stack)
            && |p.stack.layers[0].items| > 0
            && p.stack.layers[|p.stack.layers| - 1].generation >= s.layers[|s.layers| - 1].generation
            && p.stack.layers[0].generation >= s.layers[0].generation
            && |p.stack.layers| >= |s.layers|
            && |p.pruned| <= 1
            && (|p.pruned| == 1 ==> |s.layers| == s.maxLayers && p.pruned[0] == s.layers[|s.layers| - 1])
  {
    var p := Push(s, x).value;
    if Full(s.layers[0]) {
      OpenKeepsValid(s, p.stack, p.pruned, x);
    } else {
      ExtendKeepsValid(s, p.stack, p.pruned, x);
    }
  }

  /** What `PushKeepsValid` promises of a step from `s` to `t` with the
      layers `pruned` handed to the pruner. */
  ghost predicate ValidStep<T>(s: Stack<T>, t: Stack<T>, pruned: seq<Layer<T>>)
    requires |s.layers| > 0
  {
    && Valid(t)
    && |t.layers| > 0
    && |t.layers[0].items| > 0
    && t.layers[|t.layers| - 1].generation >= s.layers[|s.layers| - 1].generation
    && t.layers[0].generation >= s.layers[0].generation
    && |t.layers| >= |s.layers|
    && |pruned| <= 1
    && (|pruned| == 1 ==> |s.layers| == s.maxLayers && pruned[0] == s.layers[|s.layers| - 1])
  }

  /** The push that opens a new front layer. */
  lemma OpenKeepsValid<T>(s: Stack<T>, t: Stack<T>, pruned: seq<Layer<T>>, x: T)
    requires Valid(s) && s.maxLayers > 0 && s.maxLength > 0 && Full(s.layers[0])
    requires t.maxLayers == s.maxLayers && t.maxLength == s.maxLength
    requires t.layers + pruned == [Layer(s.maxLength, s.layers[0].generation + 1, [x])] + s.layers
    requires |t.layers| == Min(s.maxLayers, |s.layers| + 1)
    ensures ValidStep(s, t, pruned)
  {
    var grown := [Layer(s.maxLength, s.layers[0].generation + 1, [x])] + s.layers;
    assert t.layers == grown[..|t.layers|];
    assert |s.layers[0].items| == s.maxLength;
    forall j | 1 <= j < |t.layers|
      ensures t.layers[j] == s.layers[j - 1]
    {
    }
    if |pruned| > 0 {
      assert pruned == grown[|t.layers|..];
    }
  }

  /** The push that lands in the front layer. */
  lemma ExtendKeepsValid<T>(s: Stack<T>, t: Stack<T>, pruned: seq<Layer<T>>, x: T)
    requires Valid(s) && s.maxLayers > 0 && s.maxLength > 0 && !Full(s.layers[0])
    requires t.maxLayers == s.maxLayers && t.maxLength == s.maxLength
    requires t.layers + pruned == [s.layers[0].(items := s.layers[0].items + [x])] + s.layers[1..]
    requires |t.layers| == Min(s.maxLayers, |s.layers|)
    ensures ValidStep(s, t, pruned)
  {
    var grown := [s.layers[0].(items := s.layers[0].items + [x])] + s.layers[1..];
    assert t.layers == grown;
    forall j | 1 <= j < |t.layers|
      ensures t.layers[j] == s.layers[j]
    {
    }
  }

  /** Splitting a layer list into kept and pruned layers loses nothing. */
  lemma SplitContents<T>(kept: seq<Layer<T>>, pruned: seq<Layer<T>>, grown: seq<Layer<T>>)
    requires kept + pruned == grown
    ensures Contents(States(pruned)) + Contents(States(kept)) == Contents(States(grown))
  {
    StatesAppend(kept, pruned);
    ContentsAppend(States(kept), States(pruned));
  }

  /** A new front layer holding just `x` adds `x` after the old contents. */
  lemma OpenFrontContents<T>(front: Layer<T>, layers: seq<Layer<T>>, x: T)
    requires front.items == [x]
    ensures Contents(States([front] + layers)) == Contents(States(layers)) + [x]
  {
    StatesAppend([front], layers);
    ContentsCons(StateOf(front), States(layers));
  }

  /** Appending `x` to the front layer adds `x` after the old contents. */
  lemma ExtendFrontContents<T>(layers: seq<Layer<T>>, x: T)
    requires |layers| > 0
    ensures Contents(States([layers[0].(items := layers[0].items + [x])] + layers[1..]))
            == Contents(States(layers)) + [x]
  {
    var front := layers[0];
    var front' := front.(items := front.items + [x]);
    StatesAppend([front'], layers[1..]);
    ContentsCons(StateOf(front'), States(layers[1..]));
    StatesAppend([front], layers[1..]);
    assert layers == [front] + layers[1..];
    ContentsCons(StateOf(front), States(layers[1..]));
  }

  /** One push loses nothing: the pruned items followed by the kept items
      are the old contents followed by the pushed item. */
  lemma PushConserves<T>(s: Stack<T>, x: T)
    requires Push(s, x).Success?
    ensures var p := Push(s, x).value;
            Contents(States(p.pruned)) + Contents(States(p.stack.layers)) == Contents(States(s.layers)) + [x]
  {
    var p := Push(s, x).value;
    var front := s.layers[0];
    if Full(front) {
      var newFront := Layer(s.maxLength, front.generation + 1, [x]);
      SplitContents(p.stack.layers, p.pruned, [newFront] + s.layers);
      OpenFrontContents(newFront, s.layers, x);
    } else {
      SplitContents(p.stack.layers, p.pruned, [front.(items := front.items + [x])] + s.layers[1..]);
      ExtendFrontContents(s.layers, x);
    }
  }

  /** Repeated pushes on a valid stack always succeed, keep the invariant
      and never move the window backwards. */
  lemma {:induction false} PushAllKeepsValid<T>(s: Stack<T>, xs: seq<T>)
    requires Valid(s) && s.maxLayers > 0 && s.maxLength > 0
    ensures PushAll(s, xs).Success?
    ensures var p := PushAll(s, xs).value;
            && Valid(p.stack)
            && p.stack.maxLayers == s.maxLayers && p.stack.maxLength == s.maxLength
            && p.stack.layers[|p.stack.layers| - 1].generation >= s.layers[|s.layers| - 1].generation
            && p.stack.layers[0].generation >= s.layers[0].generation
    decreases |xs|
  {
    if |xs| == 0 {
      assert PushAll(s, xs) == Success(Pushed(s, []));
    } else {
      var init, x := xs[..|xs| - 1], xs[|xs| - 1];
      DropLast(xs);
      PushAllKeepsValid(s, init);
      var before := PushAll(s, init).value;
      PushKeepsValid(before.stack, x);
      var last := Push(before.stack, x).value;
      PushAllSnoc(s, init, x);
      assert PushAll(s, xs).value.stack == last.stack;
    }
  }

  /** The last of several pushes on a valid stack, seen as one `Push`
      after all the others. */
  lemma PushAllLast<T>(s: Stack<T>, xs: seq<T>)
    requires Valid(s) && s.maxLayers > 0 && s.maxLength > 0 && |xs| > 0
    ensures PushAll(s, xs[..|xs| - 1]).Success?
    ensures var before := PushAll(s, xs[..|xs| - 1]).value;
            && Valid(before.stack)
            && before.stack.maxLayers == s.maxLayers && before.stack.maxLength == s.maxLength
            && Push(before.stack, xs[|xs| - 1]).Success?
            && var last := Push(before.stack, xs[|xs| - 1]).value;
               && ValidStep(before.stack, last.stack, last.pruned)
               && PushAll(s, xs) == Success(Pushed(last.stack, before.pruned + last.pruned))
  {
    var init, x := xs[..|xs| - 1], xs[|xs| - 1];
    DropLast(xs);
    PushAllKeepsValid(s, init);
    var before := PushAll(s, init).value;
    PushKeepsValid(before.stack, x);
    PushAllSnoc(s, init, x);
  }

  /** Pruning conservation: across any number of pushes on a valid stack,
      the items handed to the pruner, in call order, followed by the items
      still held, are the original contents followed by the pushed items. */
  lemma {:induction false} PushAllConserves<T>(s: Stack<T>, xs: seq<T>)
    requires Valid(s) && s.maxLayers > 0 && s.maxLength > 0
    ensures PushAll(s, xs).Success?
    ensures var p := PushAll(s, xs).value;
            Concat(States(p.pruned)) + Contents(States(p.stack.layers)) == Contents(States(s.layers)) + xs
    decreases |xs|
  {
    if |xs| == 0 {
      assert PushAll(s, xs) == Success(Pushed(s, []));
    } else {
      var init, x := xs[..|xs| - 1], xs[|xs| - 1];
      DropLast(xs);
      PushAllConserves(s, init);
      PushAllKeepsValid(s, init);
      var before := PushAll(s, init).value;
      PushKeepsValid(before.stack, x);
      PushConserves(before.stack, x);
      var last := Push(before.stack, x).value;
      PushAllSnoc(s, init, x);
      ConservesAcross(s, before, last, init, x);
      assert PushAll(s, xs).value == Pushed(last.stack, before.pruned + last.pruned);
    }
  }

  /** Conservation over `init` followed by conservation over one push of
      `x` is conservation over `init + [x]`. */
  lemma ConservesAcross<T>(s: Stack<T>, before: Pushed<T>, last: Pushed<T>, init: seq<T>, x: T)
    requires Concat(States(before.pruned)) + Contents(States(before.stack.layers)) == Contents(States(s.layers)) + init
    requires Contents(States(last.pruned)) + Contents(States(last.stack.layers)) == Contents(States(before.stack.layers)) + [x]
    requires |last.pruned| <= 1
    ensures Concat(States(before.pruned + last.pruned)) + Contents(States(last.stack.layers))
            == Contents(States(s.layers)) + (init + [x])
  {
    StatesAppend(before.pruned, last.pruned);
    ConcatAppend(States(before.pruned), States(last.pruned));
    PrunedOnce(States(last.pruned));
    Regroup(Concat(States(before.pruned)), Concat(States(last.pruned)),
            Contents(States(last.stack.layers)), Contents(States(before.stack.layers)),
            Contents(States(s.layers)), init, x);
  }

  lemma Regroup<T>(bp: seq<T>, lp: seq<T>, ll: seq<T>, bl: seq<T>, c: seq<T>, init: seq<T>, x: T)
    requires lp + ll == bl + [x]
    requires bp + bl == c + init
    ensures (bp + lp) + ll == c + (init + [x])
  {
    calc {
      (bp + lp) + ll;
      bp + (lp + ll);
      bp + (bl + [x]);
      (bp + bl) + [x];
      (c + init) + [x];
    }
  }

  lemma PrunedOnce<T>(fs: seq<LayerState<T>>)
    requires |fs| <= 1
    ensures Concat(fs) == Contents(fs)
  {
    if |fs| == 1 {
      assert fs[1..] == [];
    }
  }

  /** `AppendStack.__getstate__`: the two limits and, front to back, each
      layer's generation with its items. */
  function GetState<T>(s: Stack<T>): (r: Snapshot<T>)
    ensures r.maxLayers == s.maxLayers && r.maxLength == s.maxLength
    ensures |r.layers| == |s.layers|
    ensures forall j :: 0 <= j < |s.layers| ==>
              r.layers[j].generation == s.layers[j].generation && r.layers[j].items == s.layers[j].items
  {
    Snapshot(s.maxLayers, s.maxLength, States(s.layers))
  }

  /** The `__setstate__` loop: a fresh layer per (generation, items),
      refilled by pushing its items one at a time. */
  function Rebuild<T>(maxLength: nat, fs: seq<LayerState<T>>): (r: Result<seq<Layer<T>>>)
    ensures r.Success? <==> forall j :: 0 <= j < |fs| ==> |fs[j].items| <= maxLength
    ensures r.Failure? ==> r.error == LayerFull
    ensures r.Success? ==> States(r.value) == fs
    ensures r.Success? ==> forall j :: 0 <= j < |r.value| ==> r.value[j].maxLength == maxLength
  {
    if |fs| == 0 then Success([])
    else
      FitsCons(maxLength, fs);
      var first :- Layers.PushAll(Layer(maxLength, fs[0].generation, []), fs[0].items);
      var rest :- Rebuild(maxLength, fs[1..]);
      assert [] + fs[0].items == fs[0].items;
      RebuildCons(maxLength, fs, first, rest);
      Success([first] + rest)
  }

  /** The layer refilled from `fs[0]` in front of those rebuilt from the
      rest gives `fs` back. */
  lemma RebuildCons<T>(maxLength: nat, fs: seq<LayerState<T>>, first: Layer<T>, rest: seq<Layer<T>>)
    requires |fs| > 0 && first == Layer(maxLength, fs[0].generation, fs[0].items)
    requires States(rest) == fs[1..]
    requires forall j :: 0 <= j < |rest| ==> rest[j].maxLength == maxLength
    ensures States([first] + rest) == fs
    ensures forall j :: 0 <= j < |[first] + rest| ==> ([first] + rest)[j].maxLength == maxLength
  {
    StatesAppend([first], rest);
    assert fs == [fs[0]] + fs[1..];
  }

  /** Every layer fits exactly when the first does and the rest all do. */
  lemma FitsCons<T>(maxLength: nat, fs: seq<LayerState<T>>)
    requires |fs| > 0
    ensures (forall j :: 0 <= j < |fs| ==> |fs[j].items| <= maxLength)
            <==> |fs[0].items| <= maxLength && forall j :: 0 <= j < |fs[1..]| ==> |fs[1..][j].items| <= maxLength
  {
    if forall j :: 0 <= j < |fs[1..]| ==> |fs[1..][j].items| <= maxLength {
      forall j | 1 <= j < |fs|
        ensures |fs[j].items| <= maxLength
      {
        assert fs[j] == fs[1..][j - 1];
      }
    }
  }

  /** `AppendStack.__setstate__`: fails with `LayerFull` exactly when some
      layer holds more than `max_length` items; otherwise `__getstate__`
      gives the snapshot back. */
  function SetState<T>(snap: Snapshot<T>): (r: Result<Stack<T>>)
    ensures r.Success? <==> forall j :: 0 <= j < |snap.layers| ==> |snap.layers[j].items| <= snap.maxLength
    ensures r.Failure? ==> r.error == LayerFull
    ensures r.Success? ==> GetState(r.value) == snap && Fits(r.value)
  {
    var layers :- Rebuild(snap.maxLength, snap.layers);
    Success(Stack(snap.maxLayers, snap.maxLength, layers))
  }

  /** Snapshot round trip: rebuilding a stack from its own snapshot gives the
      same configuration, generations and items back. */
  lemma StateRoundTrip<T>(s: Stack<T>)
    requires Fits(s)
    ensures SetState(GetState(s)) == Success(s)
  {
    var r := SetState(GetState(s));
    assert r.Success?;
    assert |r.value.layers| == |s.layers|;
    forall j | 0 <= j < |s.layers|
      ensures r.value.layers[j] == s.layers[j]
    {
      assert States(r.value.layers)[j] == States(s.layers)[j];
      assert r.value.layers[j].maxLength == s.layers[j].maxLength;
    }
    assert r.value.layers == s.layers;
  }
}

=== FILE: archive.dfy ===
/** `_ArchiveLayer` and `Archive`: the permanent, prepend-only chain of
    layers that receives what an `AppendStack` prunes. The linked list of
    `_ArchiveLayer` nodes is a sequence, head (newest) first; a node's
    `_next` is the element after it. */
module Archives {
  import opened Errors
  import opened Sequences
  import opened Layers

  /** An archive's `_generation` (-1 while empty) and its chain of layers. */
  datatype Archive<T> = Archive(generation: int, layers: seq<Layer<T>>)

  /** `_ArchiveLayer.fromLayer`: a copy keeping the capacity, the
      generation and the items of `l`; the copy iterates exactly as `l`
      does. */
  function FromLayer<T>(l: Layer<T>): (r: Layer<T>)
    ensures r.maxLength == l.maxLength && r.generation == l.generation
    ensures Layers.Iterate(r.items) == Layers.Iterate(l.items)
  {
    Layer(l.maxLength, l.generation, l.items)
  }

  /** Iteration and `newer` on the copy are those of the original. */
  lemma FromLayerIterates<T>(l: Layer<T>, latest: int)
    ensures Layers.Newer(FromLayer(l), latest) == Layers.Newer(l, latest)
    ensures StateOf(FromLayer(l)) == StateOf(l)
  {
  }

  /** A new archive: no head and generation -1. */
  function Empty<T>(): (a: Archive<T>)
    ensures a.generation == -1
    ensures Iterate(a) == []
  {
    Archive(-1, [])
  }

  /** `Archive.__iter__`: the layers from the head along the `_next`
      links, each from its highest index down. */
  function Iterate<T>(a: Archive<T>): (r: seq<Entry<T>>)
    ensures ItemsOf(r) == Reverse(Contents(States(a.layers)))
    ensures |a.layers| == 0 ==> r == []
    ensures |a.layers| > 0 ==>
              r == Tagged(a.layers[0].generation, Layers.Iterate(a.layers[0].items)) + Entries(States(a.layers[1..]))
    ensures |a.layers| > 0 && |a.layers[|a.layers| - 1].items| > 0 ==>
              && |r| > 0
              && r[|r| - 1] == Entry(a.layers[|a.layers| - 1].generation, 0, a.layers[|a.layers| - 1].items[0])
  {
    var fs := States(a.layers);
    EntriesReverseContents(fs);
    if |fs| > 0 then
      StatesTail(a.layers);
      if |fs[|fs| - 1].items| > 0 then
        EntriesLast(fs);
        Entries(fs)
      else
        Entries(fs)
    else
      Entries(fs)
  }

  /** `Archive.addLayer`: rejects a generation that is not newer than the
      archive's; otherwise the items, wrapped in a layer of the default
      capacity and of generation `g`, become the new head. */
  function AddLayer<T>(a: Archive<T>, g: int, items: seq<T>): (r: Result<Archive<T>>)
    ensures r.Failure? <==> g <= a.generation
    ensures r.Failure? ==> r.error == StaleGeneration
    ensures r.Success? ==> r.value.generation == g && g > a.generation
    ensures r.Success? ==> |r.value.layers| > 0 && r.value.layers[1..] == a.layers
    ensures r.Success? ==> r.value.layers[0] == Layer(DefaultMaxLength, g, items)
    ensures r.Success? ==> Iterate(r.value) == Tagged(g, Layers.Iterate(items)) + Iterate(a)
    ensures r.Success? ==> Contents(States(r.value.layers)) == Contents(States(a.layers)) + items
  {
    if g <= a.generation then Failure(StaleGeneration)
    else
      var head := Layer(DefaultMaxLength, g, items);
      StatesCons(head, a.layers);
      ContentsCons(StateOf(head), States(a.layers));
      assert ([head] + a.layers)[1..] == a.layers;
      Success(Archive(g, [head] + a.layers))
  }

  /** The shape every archive built from `Empty` by `AddLayer` keeps: the
      generation is the head's, or -1 with no head, and generations
      strictly decrease along the chain. */
  ghost predicate Valid<T>(a: Archive<T>) {
    && (|a.layers| == 0 ==> a.generation == -1)
    && (|a.layers| > 0 ==> a.layers[0].generation == a.generation)
    && GenerationsDescending(States(a.layers))
  }

  lemma EmptyValid<T>()
    ensures Valid(Empty<T>())
  {
  }

  lemma AddLayerKeepsValid<T>(a: Archive<T>, g: int, items: seq<T>)
    requires Valid(a)
    requires AddLayer(a, g, items).Success?
    ensures Valid(AddLayer(a, g, items).value)
  {
    var head := Layer(DefaultMaxLength, g, items);
    StatesCons(head, a.layers);
    DescendingCons(StateOf(head), States(a.layers));
  }

  /** On a valid archive the iteration keys (generation, index) strictly
      decrease, so every key is yielded once, and no entry is newer than
      the archive's generation. */
  lemma IterationKeysDescending<T>(a: Archive<T>)
    requires Valid(a)
    ensures KeysDescending(Iterate(a))
    ensures forall k :: 0 <= k < |Iterate(a)| ==> Iterate(a)[k].generation <= a.generation
  {
    var fs := States(a.layers);
    EntriesDescending(fs);
    forall j | 0 <= j < |fs|
      ensures fs[j].generation <= a.generation
    {
      if j > 0 {
        assert fs[0].generation > fs[j].generation;
      }
    }
    EntriesBelow(fs, a.generation);
  }

  /** Adding a batch of layers (say, those a stack pruned) in order. */
  function AddLayers<T>(a: Archive<T>, ls: seq<LayerState<T>>): (r: Result<Archive<T>>)
    ensures r.Failure? ==> r.error == StaleGeneration
    decreases |ls|
  {
    if |ls| == 0 then Success(a)
    else
      var b :- AddLayer(a, ls[0].generation, ls[0].items);
      AddLayers(b, ls[1..])
  }

  ghost predicate Increasing<T>(ls: seq<LayerState<T>>) {
    forall i, j :: 0 <= i < j < |ls| ==> ls[i].generation < ls[j].generation
  }

  /** Layers handed over in increasing generation order, starting above
      the archive's generation, are all accepted; the archive then holds
      its old contents followed by theirs, and its generation is the last
      one's. */
  lemma {:induction false} AddLayersIncreasing<T>(a: Archive<T>, ls: seq<LayerState<T>>)
    requires Increasing(ls)
    requires |ls| > 0 ==> ls[0].generation > a.generation
    ensures AddLayers(a, ls).Success?
    ensures Contents(States(AddLayers(a, ls).value.layers)) == Contents(States(a.layers)) + Concat(ls)
    ensures |ls| > 0 ==> AddLayers(a, ls).value.generation == ls[|ls| - 1].generation
    ensures |ls| == 0 ==> AddLayers(a, ls).value == a
    decreases |ls|
  {
    if |ls| == 0 {
      assert AddLayers(a, ls) == Success(a);
    } else {
      var r := AddLayer(a, ls[0].generation, ls[0].items);
      assert r.Success?;
      var b := r.value;
      var rest := ls[1..];
      assert Increasing(rest) by {
        forall i, j | 0 <= i < j < |rest|
          ensures rest[i].generation < rest[j].generation
        {
          assert rest[i] == ls[i + 1] && rest[j] == ls[j + 1];
        }
      }
      assert |rest| > 0 ==> rest[0].generation > b.generation by {
        if |rest| > 0 {
          assert rest[0] == ls[1];
        }
      }
      AddLayersIncreasing(b, rest);
      assert AddLayers(a, ls) == AddLayers(b, rest);
      var ca := Contents(States(a.layers));
      assert Contents(States(b.layers)) == ca + ls[0].items;
      assert Concat(ls) == ls[0].items + Concat(rest);
      AppendAssoc(ca, ls[0].items, Concat(rest));
      if |rest| > 0 {
        assert rest[|rest| - 1] == ls[|ls| - 1];
      } else {
        assert AddLayers(b, rest).value == b;
      }
    }
  }

  /** What `_p_resolveConflict` reads of an archive's state: its
      `_generation` and its `_head`, the latter an opaque reference. */
  datatype ArchiveState<H> = ArchiveState(generation: int, head: H)

  function GetState<T>(a: Archive<T>): ArchiveState<seq<Layer<T>>> {
    ArchiveState(a.generation, a.layers)
  }

  /** `Archive._p_resolveConflict`: the committed state is kept when both
      sides reached the same generation; anything else is a conflict. The
      ancestor is not consulted. */
  function ResolveConflict<H>(o: ArchiveState<H>, c: ArchiveState<H>, n: ArchiveState<H>): (r: Result<ArchiveState<H>>)
    ensures r.Success? <==> c.generation == n.generation
    ensures r.Success? ==> r.value == c
    ensures r.Failure? ==> r.error == Conflict(ConflictingGenerations)
  {
    if c.generation == n.generation then Success(c) else Failure(Conflict(ConflictingGenerations))
  }

  /** Two transactions that each added one layer to the same archive can
      be reconciled exactly when they added the same generation, and the
      result is the committed archive. */
  lemma ConcurrentAdds<T>(a: Archive<T>, gc: int, cs: seq<T>, gn: int, ns: seq<T>)
    requires AddLayer(a, gc, cs).Success? && AddLayer(a, gn, ns).Success?
    ensures var c := AddLayer(a, gc, cs).value;
            var n := AddLayer(a, gn, ns).value;
            && (ResolveConflict(GetState(a), GetState(c), GetState(n)).Success? <==> gc == gn)
            && (gc == gn ==> ResolveConflict(GetState(a), GetState(c), GetState(n)) == Success(GetState(c)))
  {
  }
}

=== FILE: errors.dfy ===
/** Failure values for the exceptions the append-only structures raise, and
    the result type every fallible operation returns instead of raising. */
module Errors {

  /** The reason carried by a conflict-resolution failure. */
  datatype ConflictReason =
    | ConflictingMaxLayers
    | ConflictingMaxLength
    | CommittedObsoletesOld
    | NewObsoletesOld
    | ConflictingGenerations

  datatype Error =
    /** A push against a layer that already holds its maximum length. */
    | LayerFull
    /** Indexing an empty layer list (the Python `IndexError`). */
    | IndexOutOfRange
    /** `Archive.addLayer` given a generation that is not newer. */
    | StaleGeneration
    /** The store's unresolvable-conflict signal. */
    | Conflict(reason: ConflictReason)

  datatype Result<+T> = Success(value: T) | Failure(error: Error) {

    predicate IsFailure() {
      Failure?
    }

    function PropagateFailure<U>(): Result<U>
      requires Failure?
    {
      Failure(error)
    }

    function Extract(): T
      requires Success?
    {
      value
    }
  }
}

=== FILE: layers.dfy ===
/** `_LayerBase` and `_Layer`: a bounded append buffer tagged with a
    generation, and the frame view of a newest-first list of layers that
    `AppendStack` and `Archive` both iterate. */
module Layers {
  import opened Errors
  import opened Sequences

  /** The constructor default for `max_length`. */
  const DefaultMaxLength: nat := 100

  datatype Layer<T> = Layer(maxLength: nat, generation: int, items: seq<T>)

  predicate Full<T>(l: Layer<T>) {
    |l.items| >= l.maxLength
  }

  /** `_Layer.push`: appends `x`, or fails with `LayerFull` once the layer
      holds `maxLength` items. */
  function Push<T>(l: Layer<T>, x: T): (r: Result<Layer<T>>)
    ensures r.Failure? <==> |l.items| >= l.maxLength
    ensures r.Failure? ==> r.error == LayerFull
    ensures r.Success? ==> r.value.maxLength == l.maxLength && r.value.generation == l.generation
    ensures r.Success? ==>
              && |r.value.items| == |l.items| + 1
              && r.value.items[..|l.items|] == l.items
              && r.value.items[|l.items|] == x
  {
    if Full(l) then Failure(LayerFull) else Success(l.(items := l.items + [x]))
  }

  /** Pushing `xs` one at a time, as `AppendStack.__setstate__` refills a
      layer: it succeeds exactly when everything fits, and then the items
      are appended in order. */
  function PushAll<T>(l: Layer<T>, xs: seq<T>): (r: Result<Layer<T>>)
    ensures r.Success? <==> |xs| == 0 || |l.items| + |xs| <= l.maxLength
    ensures r.Failure? ==> r.error == LayerFull
    ensures r.Success? ==> r.value == l.(items := l.items + xs)
    decreases |xs|
  {
    if |xs| == 0 then Success(l)
    else
      var next :- Push(l, xs[0]);
      assert next.items == l.items + [xs[0]];
      assert next.items + xs[1..] == l.items + xs;
      PushAll(next, xs[1..])
  }

  /** `_LayerBase.__iter__`: the pairs (index, item) from the highest index
      down to 0. */
  function Iterate<T>(items: seq<T>): (r: seq<(int, T)>)
    ensures |r| == |items|
    ensures forall j :: 0 <= j < |r| ==> r[j] == (|items| - 1 - j, items[|items| - 1 - j])
  {
    if |items| == 0 then []
    else [(|items| - 1, items[|items| - 1])] + Iterate(items[..|items| - 1])
  }

  function IndexAbove<T>(latest: int): ((int, T)) -> bool {
    (p: (int, T)) => p.0 > latest
  }

  /** How many indices of a layer of `n` items lie above `latest`. */
  function NewerCount(n: nat, latest: int): nat {
    if latest < 0 then n else if latest + 1 >= n then 0 else n - 1 - latest
  }

  /** `_LayerBase.newer`: the iteration, cut off at the first index at or
      below `latest`. */
  function Newer<T>(l: Layer<T>, latest: int): (r: seq<(int, T)>)
    ensures r <= Iterate(l.items)
    ensures |r| == NewerCount(|l.items|, latest)
    ensures forall j :: 0 <= j < |r| ==> r[j].0 > latest
  {
    var it := Iterate(l.items);
    var r := TakeWhile(it, IndexAbove(latest));
    assert |r| > 0 ==> r[|r| - 1] == it[|r| - 1];
    assert |r| < |it| ==> !IndexAbove<T>(latest)(it[|r|]);
    r
  }

  /** Because indices only decrease along the iteration, cutting off at the
      first old index yields exactly the pairs whose index is above
      `latest`. */
  lemma NewerIsFilter<T>(l: Layer<T>, latest: int)
    ensures Newer(l, latest) == Filter(Iterate(l.items), IndexAbove(latest))
  {
    var it := Iterate(l.items);
    assert StaysFalse(it, IndexAbove(latest)) by {
      forall i, j | 0 <= i < j < |it| && IndexAbove(latest)(it[j])
        ensures IndexAbove<T>(latest)(it[i])
      {
      }
    }
    TakeWhileIsFilter(it, IndexAbove(latest));
  }

  /** A layer as `__getstate__` and the pruner see it: (generation, items). */
  datatype LayerState<T> = LayerState(generation: int, items: seq<T>)

  function StateOf<T>(l: Layer<T>): LayerState<T> {
    LayerState(l.generation, l.items)
  }

  function States<T>(ls: seq<Layer<T>>): (r: seq<LayerState<T>>)
    ensures |r| == |ls|
    ensures forall j :: 0 <= j < |ls| ==> r[j] == StateOf(ls[j])
  {
    seq(|ls|, j requires 0 <= j < |ls| => StateOf(ls[j]))
  }

  lemma StatesAppend<T>(a: seq<Layer<T>>, b: seq<Layer<T>>)
    ensures States(a + b) == States(a) + States(b)
  {
  }

  lemma StatesSlice<T>(ls: seq<Layer<T>>, i: nat, j: nat)
    requires i <= j <= |ls|
    ensures States(ls[i..j]) == States(ls)[i..j]
  {
  }

  lemma StatesCons<T>(l: Layer<T>, ls: seq<Layer<T>>)
    ensures States([l] + ls) == [StateOf(l)] + States(ls)
  {
  }

  lemma StatesTail<T>(ls: seq<Layer<T>>)
    requires |ls| > 0
    ensures States(ls[1..]) == States(ls)[1..]
  {
  }

  lemma StatesGrowFront<T>(ls: seq<Layer<T>>, x: T)
    requires |ls| > 0
    ensures var fs := States(ls);
            States([ls[0].(items := ls[0].items + [x])] + ls[1..])
            == [fs[0].(items := fs[0].items + [x])] + fs[1..]
  {
    StatesCons(ls[0].(items := ls[0].items + [x]), ls[1..]);
    StatesTail(ls);
  }

  /** The items of a newest-first list of layers, in append order. */
  function Contents<T>(fs: seq<LayerState<T>>): seq<T> {
    if |fs| == 0 then [] else Contents(fs[1..]) + fs[0].items
  }

  lemma ContentsCons<T>(f: LayerState<T>, fs: seq<LayerState<T>>)
    ensures Contents([f] + fs) == Contents(fs) + f.items
  {
    assert ([f] + fs)[1..] == fs;
  }

  lemma {:induction false} ContentsAppend<T>(a: seq<LayerState<T>>, b: seq<LayerState<T>>)
    ensures Contents(a + b) == Contents(b) + Contents(a)
  {
    if |a| == 0 {
      assert a + b == b;
    } else {
      assert (a + b)[1..] == a[1..] + b;
      ContentsAppend(a[1..], b);
    }
  }

  /** The items of a list of layers taken in list order (the order in
      which the pruner receives them). */
  function Concat<T>(fs: seq<LayerState<T>>): seq<T> {
    if |fs| == 0 then [] else fs[0].items + Concat(fs[1..])
  }

  lemma {:induction false} ConcatAppend<T>(a: seq<LayerState<T>>, b: seq<LayerState<T>>)
    ensures Concat(a + b) == Concat(a) + Concat(b)
  {
    if |a| == 0 {
      assert a + b == b;
    } else {
      assert (a + b)[1..] == a[1..] + b;
      ConcatAppend(a[1..], b);
    }
  }

  /** One element of an `AppendStack` or `Archive` iteration. */
  datatype Entry<T> = Entry(generation: int, index: int, item: T)

  function Tagged<T>(g: int, ps: seq<(int, T)>): (r: seq<Entry<T>>)
    ensures |r| == |ps|
    ensures forall j :: 0 <= j < |ps| ==> r[j] == Entry(g, ps[j].0, ps[j].1)
  {
    seq(|ps|, j requires 0 <= j < |ps| => Entry(g, ps[j].0, ps[j].1))
  }

  /** Iteration over a newest-first list of layers: the layers front to
      back, each from its highest index down. */
  function Entries<T>(fs: seq<LayerState<T>>): (r: seq<Entry<T>>)
    ensures |r| == |Contents(fs)|
  {
    if |fs| == 0 then []
    else Tagged(fs[0].generation, Iterate(fs[0].items)) + Entries(fs[1..])
  }

  function ItemsOf<T>(es: seq<Entry<T>>): (r: seq<T>)
    ensures |r| == |es|
    ensures forall j :: 0 <= j < |es| ==> r[j] == es[j].item
  {
    seq(|es|, j requires 0 <= j < |es| => es[j].item)
  }

  /** Iteration yields the items in exactly the reverse of append order. */
  lemma {:induction false} EntriesReverseContents<T>(fs: seq<LayerState<T>>)
    ensures ItemsOf(Entries(fs)) == Reverse(Contents(fs))
  {
    if |fs| > 0 {
      var head := Tagged(fs[0].generation, Iterate(fs[0].items));
      EntriesReverseContents(fs[1..]);
      assert ItemsOf(head) == Reverse(fs[0].items);
      assert ItemsOf(head + Entries(fs[1..])) == ItemsOf(head) + ItemsOf(Entries(fs[1..]));
      ReverseAppend(Contents(fs[1..]), fs[0].items);
    }
  }

  /** The iteration opens with the newest item of the front layer. */
  lemma EntriesFirst<T>(fs: seq<LayerState<T>>)
    requires |fs| > 0 && |fs[0].items| > 0
    ensures |Entries(fs)| > 0
    ensures Entries(fs)[0] == Entry(fs[0].generation, |fs[0].items| - 1, fs[0].items[|fs[0].items| - 1])
  {
  }

  /** The iteration closes with the oldest item of the back layer. */
  lemma {:induction false} EntriesLast<T>(fs: seq<LayerState<T>>)
    requires |fs| > 0 && |fs[|fs| - 1].items| > 0
    ensures |Entries(fs)| > 0
    ensures Entries(fs)[|Entries(fs)| - 1] == Entry(fs[|fs| - 1].generation, 0, fs[|fs| - 1].items[0])
  {
    var head := Tagged(fs[0].generation, Iterate(fs[0].items));
    if |fs| == 1 {
      assert fs[1..] == [];
      assert Entries(fs) == head;
    } else {
      assert fs[1..][|fs[1..]| - 1] == fs[|fs| - 1];
      EntriesLast(fs[1..]);
    }
  }

  /** Python's tuple order: `(g1, i1) > (g2, i2)`. */
  predicate KeyAbove(g1: int, i1: int, g2: int, i2: int) {
    g1 > g2 || (g1 == g2 && i1 > i2)
  }

  ghost predicate GenerationsDescending<T>(fs: seq<LayerState<T>>) {
    forall a, b :: 0 <= a < b < |fs| ==> fs[a].generation > fs[b].generation
  }

  /** A layer newer than the first keeps the generations descending. */
  lemma DescendingCons<T>(f: LayerState<T>, fs: seq<LayerState<T>>)
    requires GenerationsDescending(fs)
    requires |fs| > 0 ==> fs[0].generation < f.generation
    ensures GenerationsDescending([f] + fs)
  {
    var gs := [f] + fs;
    forall a, b | 0 <= a < b < |gs|
      ensures gs[a].generation > gs[b].generation
    {
      assert gs[b] == fs[b - 1];
      if a > 0 {
        assert gs[a] == fs[a - 1];
      } else if b > 1 {
        assert fs[0].generation > fs[b - 1].generation;
      }
    }
  }

  ghost predicate KeysDescending<T>(es: seq<Entry<T>>) {
    forall a, b :: 0 <= a < b < |es| ==>
      KeyAbove(es[a].generation, es[a].index, es[b].generation, es[b].index)
  }

  lemma {:induction false} EntriesBelow<T>(fs: seq<LayerState<T>>, bound: int)
    requires forall j :: 0 <= j < |fs| ==> fs[j].generation <= bound
    ensures forall k :: 0 <= k < |Entries(fs)| ==> Entries(fs)[k].generation <= bound
  {
    if |fs| > 0 {
      EntriesBelow(fs[1..], bound);
    }
  }

  /** With generations strictly decreasing from front to back, the keys
      (generation, index) strictly decrease along the iteration. */
  lemma {:induction false} EntriesDescending<T>(fs: seq<LayerState<T>>)
    requires GenerationsDescending(fs)
    ensures KeysDescending(Entries(fs))
  {
    if |fs| > 0 {
      var g := fs[0].generation;
      var head := Tagged(g, Iterate(fs[0].items));
      var rest := Entries(fs[1..]);
      EntriesDescending(fs[1..]);
      EntriesBelow(fs[1..], g - 1);
      var es := head + rest;
      forall a, b | 0 <= a < b < |es|
        ensures KeyAbove(es[a].generation, es[a].index, es[b].generation, es[b].index)
      {
        if b < |head| {
        } else if a < |head| {
          assert es[b] == rest[b - |head|];
        } else {
          assert es[a] == rest[a - |head|] && es[b] == rest[b - |head|];
        }
      }
    }
  }
}

=== FILE: merge.dfy ===
/** `AppendStack._p_resolveConflict`: the three-way merge of an ancestor,
    a committed and a new snapshot. */
module StackMerge {
  import opened Errors
  import opened Sequences
  import opened Layers
  import opened AppendStacks

  /** Python's `items[start:]` for a non-negative start. */
  function Suffix<T>(items: seq<T>, start: nat): (r: seq<T>)
    ensures start <= |items| ==> items[..start] + r == items
    ensures start >= |items| ==> r == []
  {
    if start <= |items| then items[start..] else []
  }

  /** The generations of `fs` count down by one from `top`. */
  ghost predicate CountsDownFrom<T>(fs: seq<LayerState<T>>, top: int) {
    forall j :: 0 <= j < |fs| ==> fs[j].generation == top - j
  }

  lemma CountsDownTail<T>(fs: seq<LayerState<T>>, top: int)
    requires CountsDownFrom(fs, top) && |fs| > 0
    ensures fs[0].generation == top
    ensures CountsDownFrom(fs[1..], top - 1)
    ensures |fs| > 1 ==> fs[1..][0].generation == top - 1
  {
    forall j | 0 <= j < |fs| - 1
      ensures fs[1..][j].generation == top - 1 - j
    {
      assert fs[1..][j] == fs[j + 1];
    }
  }

  /** `fs` is non-empty, its generations count down by one, and one of
      them is `oldGen`. */
  ghost predicate Contiguous<T>(fs: seq<LayerState<T>>, oldGen: int) {
    && |fs| > 0 && CountsDownFrom(fs, fs[0].generation)
    && fs[0].generation - |fs| < oldGen <= fs[0].generation
  }

  /** The tail past `oldCount` of the layer of generation `oldGen`,
      followed by the items of every newer layer, oldest first. */
  function Split<T>(fs: seq<LayerState<T>>, oldGen: int, oldCount: nat): seq<T>
    requires Contiguous(fs, oldGen)
  {
    Suffix(fs[fs[0].generation - oldGen].items, oldCount) + Contents(fs[..fs[0].generation - oldGen])
  }

  /** The delta loop over N's layers, newest first: every item of a
      generation newer than O's front, the items of O's front generation
      past O's front length, and a stop at the first older generation.
      Each group is put in front of the groups already collected, so the
      result is oldest first. When the generations count down by one, as
      in every stack `push` builds, the delta is the tail of the layer of
      generation `oldGen` followed by the items of every newer layer. */
  function Delta<T>(fs: seq<LayerState<T>>, oldGen: int, oldCount: nat): (r: seq<T>)
    ensures |fs| == 0 || fs[0].generation < oldGen ==> r == []
    ensures Contiguous(fs, oldGen) ==> r == Split(fs, oldGen, oldCount)
    decreases |fs|
  {
    if |fs| == 0 then []
    else if fs[0].generation > oldGen then
      var rest := Delta(fs[1..], oldGen, oldCount);
      DeltaNewerFront(fs, oldGen, oldCount, rest);
      rest + fs[0].items
    else if fs[0].generation == oldGen then
      var rest := Delta(fs[1..], oldGen, oldCount);
      DeltaAncestorFront(fs, oldGen, oldCount, rest);
      rest + Suffix(fs[0].items, oldCount)
    else []
  }

  /** The step of `Delta` past a layer newer than `oldGen`: it adds all of
      that layer's items after the delta of the older layers. */
  lemma DeltaNewerFront<T>(fs: seq<LayerState<T>>, oldGen: int, oldCount: nat, rest: seq<T>)
    requires |fs| > 0 && fs[0].generation > oldGen
    requires Contiguous(fs[1..], oldGen) ==> rest == Split(fs[1..], oldGen, oldCount)
    ensures Contiguous(fs, oldGen) ==> rest + fs[0].items == Split(fs, oldGen, oldCount)
  {
    var top := fs[0].generation;
    if Contiguous(fs, oldGen) {
      CountsDownTail(fs, top);
      assert Contiguous(fs[1..], oldGen);
      var p := top - oldGen;
      var tail := fs[1..];
      assert tail[p - 1] == fs[p];
      assert fs[..p] == [fs[0]] + tail[..p - 1];
      ContentsCons(fs[0], tail[..p - 1]);
      var sfx, older := Suffix(fs[p].items, oldCount), Contents(tail[..p - 1]);
      assert rest == sfx + older;
      assert Split(fs, oldGen, oldCount) == sfx + (older + fs[0].items);
      AppendAssoc(sfx, older, fs[0].items);
    }
  }

  /** The step of `Delta` at the layer of generation `oldGen`: its tail
      past `oldCount`, and nothing from the older layers behind it. */
  lemma DeltaAncestorFront<T>(fs: seq<LayerState<T>>, oldGen: int, oldCount: nat, rest: seq<T>)
    requires |fs| > 0 && fs[0].generation == oldGen
    requires |fs[1..]| == 0 || fs[1..][0].generation < oldGen ==> rest == []
    ensures Contiguous(fs, oldGen) ==> rest + Suffix(fs[0].items, oldCount) == Split(fs, oldGen, oldCount)
  {
    if Contiguous(fs, oldGen) {
      CountsDownTail(fs, oldGen);
      assert fs[..0] == [];
    }
  }

  /** One turn of the replay loop: a new front generation is opened when
      the front holds exactly `maxLength` items, then the item is appended. */
  function ReplayOne<T>(fs: seq<LayerState<T>>, maxLength: nat, x: T): (r: seq<LayerState<T>>)
    requires |fs| > 0
    ensures |r| > 0
    ensures Contents(r) == Contents(fs) + [x]
    ensures |fs[0].items| == maxLength ==>
              && |r| == |fs| + 1 && r[1..] == fs
              && r[0].generation == fs[0].generation + 1 && r[0].items == [x]
    ensures |fs[0].items| != maxLength ==>
              && |r| == |fs| && r[1..] == fs[1..]
              && r[0].generation == fs[0].generation && r[0].items == fs[0].items + [x]
  {
    if |fs[0].items| == maxLength then
      ContentsCons(LayerState(fs[0].generation + 1, [x]), fs);
      [LayerState(fs[0].generation + 1, [x])] + fs
    else
      ContentsCons(fs[0], fs[1..]);
      ContentsCons(fs[0].(items := fs[0].items + [x]), fs[1..]);
      assert fs == [fs[0]] + fs[1..];
      [fs[0].(items := fs[0].items + [x])] + fs[1..]
  }

  /** The whole replay loop: the delta lands on the committed layers in
      order, so the replayed contents are C's followed by the delta. */
  function Replay<T>(fs: seq<LayerState<T>>, maxLength: nat, xs: seq<T>): (r: seq<LayerState<T>>)
    requires |fs| > 0
    ensures |r| > 0
    ensures Contents(r) == Contents(fs) + xs
    ensures Lays(r, fs)
    decreases |xs|
  {
    if |xs| == 0 then
      assert CountsDownFrom(fs[..1], fs[0].generation);
      fs
    else
      var before := Replay(fs, maxLength, xs[..|xs| - 1]);
      assert xs == xs[..|xs| - 1] + [xs[|xs| - 1]];
      var r := ReplayOne(before, maxLength, xs[|xs| - 1]);
      LaysOne(before, fs, maxLength, xs[|xs| - 1]);
      r
  }

  /** `r` is `fs` with newer layers put in front: the layers behind the
      front are untouched, the old front keeps its generation and its
      items as a prefix, and every layer put in front is one generation
      newer than the layer behind it. */
  ghost predicate Lays<T>(r: seq<LayerState<T>>, fs: seq<LayerState<T>>) {
    && 0 < |fs| <= |r|
    && r[|r| - |fs| + 1..] == fs[1..]
    && r[|r| - |fs|].generation == fs[0].generation
    && fs[0].items <= r[|r| - |fs|].items
    && CountsDownFrom(r[..|r| - |fs| + 1], fs[0].generation + |r| - |fs|)
  }

  /** One more replayed item keeps `Lays`. */
  lemma LaysOne<T>(before: seq<LayerState<T>>, fs: seq<LayerState<T>>, maxLength: nat, x: T)
    requires Lays(before, fs)
    ensures Lays(ReplayOne(before, maxLength, x), fs)
  {
    var r := ReplayOne(before, maxLength, x);
    var k := |before| - |fs|;
    var top := fs[0].generation + k;
    CountsDownTail(before[..k + 1], top);
    assert before[0].generation == top;
    if |before[0].items| == maxLength {
      assert r[|r| - |fs| + 1..] == before[k + 1..];
      assert r[|r| - |fs|] == before[k];
      assert r[..|r| - |fs| + 1] == [r[0]] + before[..k + 1];
      CountsDownCons(r[0], before[..k + 1], top);
    } else if k == 0 {
      assert r[|r| - |fs| + 1..] == before[1..];
      assert r[..1] == [r[0]];
    } else {
      assert r[|r| - |fs| + 1..] == before[k + 1..];
      assert r[|r| - |fs|] == before[k];
      assert r[..k + 1] == [r[0]] + before[1..k + 1];
      assert before[..k + 1][1..] == before[1..k + 1];
      CountsDownCons(r[0], before[1..k + 1], top - 1);
    }
  }

  /** A layer one generation newer in front keeps generations counting down. */
  lemma CountsDownCons<T>(f: LayerState<T>, fs: seq<LayerState<T>>, top: int)
    requires CountsDownFrom(fs, top) && f.generation == top + 1
    ensures CountsDownFrom([f] + fs, top + 1)
  {
    forall j | 0 <= j < |fs| + 1
      ensures ([f] + fs)[j].generation == top + 1 - j
    {
      if j > 0 {
        assert ([f] + fs)[j] == fs[j - 1];
      }
    }
  }

  /** Where replaying and pushing part ways: the replay opens a new layer
      only when the front holds exactly `maxLength` items, while a push
      opens one as soon as it holds at least that many. On a front already
      over the limit, the replay keeps filling it; compare
      `PushOverfullFront`. */
  lemma ReplayOverfullFront()
    ensures Replay([LayerState(0, [1, 2, 3])], 2, [4]) == [LayerState(0, [1, 2, 3, 4])]
  {
    var fs := [LayerState(0, [1, 2, 3])];
    assert [4][..0] == [];
    assert Replay(fs, 2, []) == fs;
    assert [1, 2, 3] + [4] == [1, 2, 3, 4];
  }

  /** A push onto the same over-full front opens a new layer instead. */
  lemma PushOverfullFront()
    ensures AppendStacks.Push(Stack(5, 2, [Layer(2, 0, [1, 2, 3])]), 4)
            == Success(Pushed(Stack(5, 2, [Layer(2, 1, [4]), Layer(2, 0, [1, 2, 3])]), []))
  {
    var ls := [Layer(2, 0, [1, 2, 3])];
    assert Layers.Push(ls[0], 4) == Failure(LayerFull);
    assert Layers.Push(Layer(2, 1, []), 4) == Success(Layer(2, 1, [4]));
    var grown := [Layer(2, 1, [4])] + ls;
    assert Grow(ls, 2, 4) == Success(grown);
    assert Min(5, |grown|) == 2;
    assert grown[..2] == grown && grown[2..] == [];
    assert grown == [Layer(2, 1, [4]), Layer(2, 0, [1, 2, 3])];
    var s := Stack(5, 2, ls);
    assert AppendStacks.Push(s, 4) == Success(Pushed(s.(layers := grown[..2]), grown[2..]));
    assert s.(layers := grown[..2]) == Stack(5, 2, grown);
  }

  /** The conditions under which the merge returns a state rather than a
      conflict. C's `max_layers` is deliberately absent: the source compares
      O's with N's twice and never looks at C's. */
  predicate Resolvable<T>(o: Snapshot<T>, c: Snapshot<T>, n: Snapshot<T>) {
    && o.maxLayers == n.maxLayers
    && o.maxLength == c.maxLength && c.maxLength == n.maxLength
    && |o.layers| > 0 && |c.layers| > 0 && |n.layers| > 0
    && o.layers[0].generation >= c.layers[|c.layers| - 1].generation
    && o.layers[0].generation >= n.layers[|n.layers| - 1].generation
  }

  /** The merge: after the configuration and obsolescence checks, N's delta
      against O is replayed onto C and the result cut to C's `max_layers`. */
  function ResolveConflict<T>(o: Snapshot<T>, c: Snapshot<T>, n: Snapshot<T>): (r: Result<Snapshot<T>>)
    ensures r.Success? <==> Resolvable(o, c, n)
    ensures o.maxLayers != n.maxLayers ==> r == Failure(Conflict(ConflictingMaxLayers))
    ensures o.maxLayers == n.maxLayers && (o.maxLength != c.maxLength || c.maxLength != n.maxLength) ==>
              r == Failure(Conflict(ConflictingMaxLength))
    ensures && o.maxLayers == n.maxLayers && o.maxLength == c.maxLength == n.maxLength
            && (|o.layers| == 0 || |c.layers| == 0 || |n.layers| == 0) ==>
              r == Failure(IndexOutOfRange)
    ensures && o.maxLayers == n.maxLayers && o.maxLength == c.maxLength == n.maxLength
            && |o.layers| > 0 && |c.layers| > 0 && |n.layers| > 0
            && o.layers[0].generation < c.layers[|c.layers| - 1].generation ==>
              r == Failure(Conflict(CommittedObsoletesOld))
    ensures && o.maxLayers == n.maxLayers && o.maxLength == c.maxLength == n.maxLength
            && |o.layers| > 0 && |c.layers| > 0 && |n.layers| > 0
            && o.layers[0].generation >= c.layers[|c.layers| - 1].generation
            && o.layers[0].generation < n.layers[|n.layers| - 1].generation ==>
              r == Failure(Conflict(NewObsoletesOld))
    ensures r.Success? ==>
              && r.value.maxLayers == c.maxLayers && r.value.maxLength == c.maxLength
              && |r.value.layers| <= c.maxLayers
              && (c.maxLayers > 0 ==> |r.value.layers| > 0)
    ensures r.Success? ==>
              IsSuffix(Contents(r.value.layers),
                       Contents(c.layers) + Delta(n.layers, o.layers[0].generation, |o.layers[0].items|))
    ensures r.Success? ==>
              var merged := Replay(c.layers, c.maxLength, Delta(n.layers, o.layers[0].generation, |o.layers[0].items|));
              && |r.value.layers| == Min(c.maxLayers, |merged|)
              && r.value.layers == merged[..|r.value.layers|]
              && (|merged| <= c.maxLayers ==>
                    Contents(r.value.layers)
                    == Contents(c.layers) + Delta(n.layers, o.layers[0].generation, |o.layers[0].items|))
  {
    if o.maxLayers != n.maxLayers then Failure(Conflict(ConflictingMaxLayers))
    else if !(o.maxLength == c.maxLength == n.maxLength) then Failure(Conflict(ConflictingMaxLength))
    else if |o.layers| == 0 || |c.layers| == 0 || |n.layers| == 0 then Failure(IndexOutOfRange)
    else
      var oldGen := o.layers[0].generation;
      var oldCount := |o.layers[0].items|;
      if oldGen < c.layers[|c.layers| - 1].generation then Failure(Conflict(CommittedObsoletesOld))
      else if oldGen < n.layers[|n.layers| - 1].generation then Failure(Conflict(NewObsoletesOld))
      else
        var merged := Replay(c.layers, c.maxLength, Delta(n.layers, oldGen, oldCount));
        var keep := Min(c.maxLayers, |merged|);
        assert merged == merged[..keep] + merged[keep..];
        ContentsAppend(merged[..keep], merged[keep..]);
        Success(Snapshot(c.maxLayers, c.maxLength, merged[..keep]))
  }

  /** The check the merge evidently means to make on `max_layers`: all
      three states agree. The source compares O's value with N's twice, so
      a committed state with a different `max_layers` slips through and its
      value silently wins. */
  function ResolveConflictChecked<T>(o: Snapshot<T>, c: Snapshot<T>, n: Snapshot<T>): (r: Result<Snapshot<T>>)
    ensures r.Success? <==> Resolvable(o, c, n) && c.maxLayers == o.maxLayers
    ensures c.maxLayers != o.maxLayers ==> r == Failure(Conflict(ConflictingMaxLayers))
    ensures r.Success? ==> o.maxLayers == c.maxLayers == n.maxLayers == r.value.maxLayers
    ensures c.maxLayers == o.maxLayers ==> r == ResolveConflict(o, c, n)
  {
    if c.maxLayers != o.maxLayers then Failure(Conflict(ConflictingMaxLayers))
    else ResolveConflict(o, c, n)
  }

  /** The discrepancy on one input: O and N hold `max_layers` 2, C holds 3.
      The merge as written succeeds and returns C's 3; the checked merge
      reports the conflict. */
  lemma CommittedMaxLayersIgnored()
    ensures var o := Snapshot(2, 3, [LayerState(0, [1])]);
            var c := Snapshot(3, 3, [LayerState(0, [1])]);
            && ResolveConflict(o, c, o) == Success(c)
            && ResolveConflictChecked(o, c, o) == Failure(Conflict(ConflictingMaxLayers))
  {
    var o := Snapshot(2, 3, [LayerState(0, [1])]);
    var c := Snapshot(3, 3, [LayerState(0, [1])]);
    assert Delta(o.layers, 0, 1) == [] by {
      assert o.layers[1..] == [];
      assert Suffix(o.layers[0].items, 1) == [];
    }
    assert Replay(c.layers, 3, []) == c.layers;
    assert c.layers[..Min(3, 1)] == c.layers;
  }
}

=== FILE: merge_appends.dfy ===
/** What the stack merge achieves when both transactions only appended:
    N's delta against O is exactly what N pushed, the replay lands it the
    way `push` would, and so the merged snapshot is C with N's pushes. */
module MergeOfAppends {
  import opened Errors
  import opened Sequences
  import opened Layers
  import opened AppendStacks
  import opened StackMerge

  /** The stack still holds generation `oldGen`, and that layer has at
      least `oldCount` items. */
  ghost predicate HoldsAncestor<T>(s: Stack<T>, oldGen: int, oldCount: nat) {
    HoldsAncestorIn(s.layers, oldGen, oldCount)
  }

  ghost predicate HoldsAncestorIn<T>(ls: seq<Layer<T>>, oldGen: int, oldCount: nat) {
    && |ls| > 0
    && ls[|ls| - 1].generation <= oldGen <= ls[0].generation
    && 0 <= ls[0].generation - oldGen < |ls|
    && |ls[ls[0].generation - oldGen].items| >= oldCount
  }

  /** On contiguous generations, the delta is the tail of the layer of
      generation `oldGen` followed by every newer layer's items. */
  lemma DeltaSplit<T>(fs: seq<LayerState<T>>, top: int, oldGen: int, oldCount: nat)
    requires CountsDownFrom(fs, top)
    requires top - |fs| < oldGen <= top
    ensures Delta(fs, oldGen, oldCount) == Suffix(fs[top - oldGen].items, oldCount) + Contents(fs[..top - oldGen])
  {
    SplitAt(fs, top, oldGen, oldCount);
    DeltaContiguous(fs, oldGen, oldCount);
  }

  /** Generations counting down from `top` are contiguous, and the split
      then falls at index `top - oldGen`. */
  lemma SplitAt<T>(fs: seq<LayerState<T>>, top: int, oldGen: int, oldCount: nat)
    requires CountsDownFrom(fs, top)
    requires top - |fs| < oldGen <= top
    ensures Contiguous(fs, oldGen)
    ensures Split(fs, oldGen, oldCount) == Suffix(fs[top - oldGen].items, oldCount) + Contents(fs[..top - oldGen])
  {
    assert fs[0].generation == top;
  }

  /** `Delta`'s contiguous case, on its own. */
  lemma DeltaContiguous<T>(fs: seq<LayerState<T>>, oldGen: int, oldCount: nat)
    requires Contiguous(fs, oldGen)
    ensures Delta(fs, oldGen, oldCount) == Split(fs, oldGen, oldCount)
  {
  }

  lemma ValidCountsDown<T>(s: Stack<T>)
    requires Valid(s) && |s.layers| > 0
    ensures CountsDownFrom(States(s.layers), s.layers[0].generation)
  {
  }

  /** A push that opens a new front generation adds its item at the end of
      the delta, whatever the cut at the back, as long as the layer of
      generation `oldGen` is kept. */
  lemma DeltaNewFront<T>(fs: seq<LayerState<T>>, top: int, oldGen: int, oldCount: nat, x: T, keep: nat)
    requires CountsDownFrom(fs, top) && top - |fs| < oldGen <= top
    requires top + 1 - oldGen < keep <= |fs| + 1
    ensures Delta(([LayerState(top + 1, [x])] + fs)[..keep], oldGen, oldCount) == Delta(fs, oldGen, oldCount) + [x]
  {
    var p := top - oldGen;
    var front := LayerState(top + 1, [x]);
    var ts := ([front] + fs)[..keep];
    var before := Suffix(fs[p].items, oldCount) + Contents(fs[..p]);
    var after := Suffix(ts[p + 1].items, oldCount) + Contents(ts[..p + 1]);
    assert Delta(fs, oldGen, oldCount) == before by {
      DeltaSplit(fs, top, oldGen, oldCount);
    }
    assert Delta(ts, oldGen, oldCount) == after by {
      OpenedCounts(fs, top, x, keep);
      DeltaSplit(ts, top + 1, oldGen, oldCount);
    }
    assert after == before + [x] by {
      OpenedSlice(fs, front, keep, p);
      ContentsCons(front, fs[..p]);
      AppendAssoc(Suffix(fs[p].items, oldCount), Contents(fs[..p]), [x]);
    }
  }

  /** A layer one generation newer put in front, and the list cut, keeps
      generations counting down. */
  lemma OpenedCounts<T>(fs: seq<LayerState<T>>, top: int, x: T, keep: nat)
    requires CountsDownFrom(fs, top) && keep <= |fs| + 1
    ensures CountsDownFrom(([LayerState(top + 1, [x])] + fs)[..keep], top + 1)
  {
    var ts := ([LayerState(top + 1, [x])] + fs)[..keep];
    forall j | 0 <= j < |ts|
      ensures ts[j].generation == top + 1 - j
    {
      if j > 0 {
        assert ts[j] == fs[j - 1];
      }
    }
  }

  /** Index facts about a list with a layer put in front and then cut. */
  lemma OpenedSlice<T>(fs: seq<LayerState<T>>, front: LayerState<T>, keep: nat, p: nat)
    requires p + 1 < keep <= |fs| + 1
    ensures var ts := ([front] + fs)[..keep];
            && |ts| == keep
            && ts[0] == front
            && (forall j :: 0 < j < keep ==> ts[j] == fs[j - 1])
            && ts[p + 1] == fs[p]
            && ts[..p + 1] == [front] + fs[..p]
  {
  }

  /** A push into the front layer adds its item at the end of the delta,
      provided the layer of generation `oldGen` holds at least `oldCount`
      items. */
  lemma DeltaSameFront<T>(fs: seq<LayerState<T>>, top: int, oldGen: int, oldCount: nat, x: T)
    requires CountsDownFrom(fs, top) && top - |fs| < oldGen <= top
    requires |fs[top - oldGen].items| >= oldCount
    ensures Delta([fs[0].(items := fs[0].items + [x])] + fs[1..], oldGen, oldCount) == Delta(fs, oldGen, oldCount) + [x]
  {
    var ts := [fs[0].(items := fs[0].items + [x])] + fs[1..];
    var p := top - oldGen;
    var before := Suffix(fs[p].items, oldCount) + Contents(fs[..p]);
    var after := Suffix(ts[p].items, oldCount) + Contents(ts[..p]);
    assert Delta(fs, oldGen, oldCount) == before by {
      DeltaSplit(fs, top, oldGen, oldCount);
    }
    assert Delta(ts, oldGen, oldCount) == after by {
      GrownFrontCounts(fs, top, x);
      DeltaSplit(ts, top, oldGen, oldCount);
    }
    GrownFrontSplit(fs, ts, p, oldCount, x);
  }

  /** The split form of `DeltaSameFront`, wherever the ancestor's layer is. */
  lemma GrownFrontSplit<T>(fs: seq<LayerState<T>>, ts: seq<LayerState<T>>, p: nat, oldCount: nat, x: T)
    requires p < |fs| && |fs[p].items| >= oldCount
    requires ts == [fs[0].(items := fs[0].items + [x])] + fs[1..]
    ensures Suffix(ts[p].items, oldCount) + Contents(ts[..p]) == (Suffix(fs[p].items, oldCount) + Contents(fs[..p])) + [x]
  {
    if p == 0 {
      DeltaFrontTail(fs, ts, oldCount, x);
    } else {
      DeltaFrontAbove(fs, ts, p, oldCount, x);
    }
  }

  /** Growing the front layer keeps the generations. */
  lemma GrownFrontCounts<T>(fs: seq<LayerState<T>>, top: int, x: T)
    requires CountsDownFrom(fs, top) && |fs| > 0
    ensures CountsDownFrom([fs[0].(items := fs[0].items + [x])] + fs[1..], top)
  {
    var ts := [fs[0].(items := fs[0].items + [x])] + fs[1..];
    forall j | 0 <= j < |ts|
      ensures ts[j].generation == top - j
    {
      if j > 0 {
        assert ts[j] == fs[j];
      }
    }
  }

  /** The front layer is the ancestor's: the item extends its tail. */
  lemma DeltaFrontTail<T>(fs: seq<LayerState<T>>, ts: seq<LayerState<T>>, oldCount: nat, x: T)
    requires |fs| > 0 && |fs[0].items| >= oldCount
    requires ts == [fs[0].(items := fs[0].items + [x])] + fs[1..]
    ensures Suffix(ts[0].items, oldCount) + Contents(ts[..0]) == (Suffix(fs[0].items, oldCount) + Contents(fs[..0])) + [x]
  {
    assert ts[..0] == [] && fs[..0] == [];
    assert Suffix(fs[0].items + [x], oldCount) == Suffix(fs[0].items, oldCount) + [x];
  }

  /** The ancestor's layer lies behind the front: the item extends the
      newer layers' contents. */
  lemma DeltaFrontAbove<T>(fs: seq<LayerState<T>>, ts: seq<LayerState<T>>, p: nat, oldCount: nat, x: T)
    requires 0 < p < |fs|
    requires ts == [fs[0].(items := fs[0].items + [x])] + fs[1..]
    ensures Suffix(ts[p].items, oldCount) + Contents(ts[..p]) == (Suffix(fs[p].items, oldCount) + Contents(fs[..p])) + [x]
  {
    var front' := ts[0];
    assert ts[p] == fs[p];
    assert ts[..p] == [front'] + fs[1..p];
    assert fs[..p] == [fs[0]] + fs[1..p];
    ContentsCons(front', fs[1..p]);
    ContentsCons(fs[0], fs[1..p]);
  }

  lemma DeltaAfterNewFront<T>(ls: seq<Layer<T>>, ts: seq<Layer<T>>, newFront: Layer<T>, x: T, oldGen: int, oldCount: nat)
    requires |ls| > 0 && CountsDownFrom(States(ls), ls[0].generation)
    requires newFront.generation == ls[0].generation + 1 && newFront.items == [x]
    requires 0 < |ts| <= |ls| + 1 && ts == ([newFront] + ls)[..|ts|]
    requires ls[0].generation - |ls| < oldGen <= ls[0].generation
    requires |ls[ls[0].generation - oldGen].items| >= oldCount
    requires ts[|ts| - 1].generation <= oldGen
    ensures 0 <= ts[0].generation - oldGen < |ts|
    ensures |ts[ts[0].generation - oldGen].items| >= oldCount
    ensures Delta(States(ts), oldGen, oldCount) == Delta(States(ls), oldGen, oldCount) + [x]
  {
    NewFrontIndex(ls, ts, newFront, oldGen);
    NewFrontStates(ls, ts, newFront, x);
    DeltaOpened(ls, ts, x, oldGen, oldCount);
  }

  /** `DeltaAfterNewFront` once the index and state facts are known. */
  lemma DeltaOpened<T>(ls: seq<Layer<T>>, ts: seq<Layer<T>>, x: T, oldGen: int, oldCount: nat)
    requires |ls| > 0 && CountsDownFrom(States(ls), ls[0].generation)
    requires ls[0].generation - |ls| < oldGen <= ls[0].generation
    requires |ls[ls[0].generation - oldGen].items| >= oldCount
    requires ls[0].generation + 1 - oldGen < |ts| <= |ls| + 1
    requires ts[0].generation == ls[0].generation + 1
    requires ts[ls[0].generation + 1 - oldGen] == ls[ls[0].generation - oldGen]
    requires States(ts) == ([LayerState(ls[0].generation + 1, [x])] + States(ls))[..|ts|]
    ensures 0 <= ts[0].generation - oldGen < |ts|
    ensures |ts[ts[0].generation - oldGen].items| >= oldCount
    ensures Delta(States(ts), oldGen, oldCount) == Delta(States(ls), oldGen, oldCount) + [x]
  {
    var k := ts[0].generation - oldGen;
    assert k == ls[0].generation + 1 - oldGen;
    assert ts[k] == ls[ls[0].generation - oldGen];
    DeltaNewFront(States(ls), ls[0].generation, oldGen, oldCount, x, |ts|);
  }

  /** Where the layer of generation `oldGen` sits after a new front layer
      was put in front and the list cut at the back. */
  lemma NewFrontIndex<T>(ls: seq<Layer<T>>, ts: seq<Layer<T>>, newFront: Layer<T>, oldGen: int)
    requires |ls| > 0 && CountsDownFrom(States(ls), ls[0].generation)
    requires newFront.generation == ls[0].generation + 1
    requires 0 < |ts| <= |ls| + 1 && ts == ([newFront] + ls)[..|ts|]
    requires ls[0].generation - |ls| < oldGen <= ls[0].generation
    requires ts[|ts| - 1].generation <= oldGen
    ensures ts[0] == newFront
    ensures ls[0].generation + 1 - oldGen < |ts|
    ensures ts[ls[0].generation + 1 - oldGen] == ls[ls[0].generation - oldGen]
  {
    var top := ls[0].generation;
    if |ts| > 1 {
      assert ts[|ts| - 1] == ls[|ts| - 2];
      assert States(ls)[|ts| - 2].generation == top - (|ts| - 2);
    }
  }

  lemma NewFrontStates<T>(ls: seq<Layer<T>>, ts: seq<Layer<T>>, newFront: Layer<T>, x: T)
    requires newFront.items == [x]
    requires |ts| <= |ls| + 1 && ts == ([newFront] + ls)[..|ts|]
    ensures States(ts) == ([LayerState(newFront.generation, [x])] + States(ls))[..|ts|]
  {
    StatesAppend([newFront], ls);
    StatesSlice([newFront] + ls, 0, |ts|);
  }

  lemma DeltaAfterSameFront<T>(ls: seq<Layer<T>>, ts: seq<Layer<T>>, x: T, oldGen: int, oldCount: nat)
    requires |ls| > 0 && CountsDownFrom(States(ls), ls[0].generation)
    requires ts == [ls[0].(items := ls[0].items + [x])] + ls[1..]
    requires ls[0].generation - |ls| < oldGen <= ls[0].generation
    requires |ls[ls[0].generation - oldGen].items| >= oldCount
    ensures 0 <= ts[0].generation - oldGen < |ts|
    ensures |ts[ts[0].generation - oldGen].items| >= oldCount
    ensures Delta(States(ts), oldGen, oldCount) == Delta(States(ls), oldGen, oldCount) + [x]
  {
    var k := ls[0].generation - oldGen;
    assert ts[0].generation == ls[0].generation && |ts| == |ls|;
    assert |ts[k].items| >= oldCount by {
      if k > 0 {
        assert ts[k] == ls[k];
      }
    }
    DeltaGrownFront(ls, ts, x, oldGen, oldCount);
  }

  lemma DeltaGrownFront<T>(ls: seq<Layer<T>>, ts: seq<Layer<T>>, x: T, oldGen: int, oldCount: nat)
    requires |ls| > 0 && CountsDownFrom(States(ls), ls[0].generation)
    requires ts == [ls[0].(items := ls[0].items + [x])] + ls[1..]
    requires ls[0].generation - |ls| < oldGen <= ls[0].generation
    requires |ls[ls[0].generation - oldGen].items| >= oldCount
    ensures Delta(States(ts), oldGen, oldCount) == Delta(States(ls), oldGen, oldCount) + [x]
  {
    var fs := States(ls);
    var k := ls[0].generation - oldGen;
    assert fs[k] == StateOf(ls[k]);
    StatesGrowFront(ls, x);
    DeltaSameFront(fs, ls[0].generation, oldGen, oldCount, x);
  }

  /** One push moves the delta forward by exactly the pushed item, as long
      as the layer of generation `oldGen` survives the push. */
  lemma DeltaPush<T>(s: Stack<T>, x: T, oldGen: int, oldCount: nat, ds: seq<T>)
    requires Valid(s) && s.maxLayers > 0 && s.maxLength > 0
    requires DeltaIs(s, oldGen, oldCount, ds)
    requires AppendStacks.Push(s, x).Success?
    requires var t := AppendStacks.Push(s, x).value.stack;
             |t.layers| > 0 && t.layers[|t.layers| - 1].generation <= oldGen
    ensures DeltaIs(AppendStacks.Push(s, x).value.stack, oldGen, oldCount, ds + [x])
  {
    var p := AppendStacks.Push(s, x).value;
    var ls, ts := s.layers, p.stack.layers;
    assert HoldsAncestorIn(ls, oldGen, oldCount) && Delta(States(ls), oldGen, oldCount) == ds;
    assert Lands(ls, s.maxLength, x, ts, p.pruned);
    assert CountsDownFrom(States(ls), ls[0].generation) by {
      ValidCountsDown(s);
    }
    assert !Full(ls[0]) ==> |ts| == |ls| by {
      assert |ls| <= s.maxLayers;
    }
    DeltaPushLayers(ls, ts, p.pruned, s.maxLength, x, oldGen, oldCount);
  }

  /** `DeltaPush` on the layer lists alone. */
  lemma DeltaPushLayers<T>(ls: seq<Layer<T>>, ts: seq<Layer<T>>, pruned: seq<Layer<T>>, maxLength: nat, x: T,
                           oldGen: int, oldCount: nat)
    requires HoldsAncestorIn(ls, oldGen, oldCount) && CountsDownFrom(States(ls), ls[0].generation)
    requires 0 < |ts| && ts[|ts| - 1].generation <= oldGen
    requires Lands(ls, maxLength, x, ts, pruned) && (!Full(ls[0]) ==> |ts| == |ls|)
    ensures HoldsAncestorIn(ts, oldGen, oldCount)
    ensures Delta(States(ts), oldGen, oldCount) == Delta(States(ls), oldGen, oldCount) + [x]
  {
    if Full(ls[0]) {
      var newFront := Layer(maxLength, ls[0].generation + 1, [x]);
      assert ts == ([newFront] + ls)[..|ts|];
      DeltaAfterNewFront(ls, ts, newFront, x, oldGen, oldCount);
    } else {
      assert ts == [ls[0].(items := ls[0].items + [x])] + ls[1..];
      DeltaAfterSameFront(ls, ts, x, oldGen, oldCount);
    }
  }

  /** A stack that still holds the layer of generation `oldGen` with at
      least `oldCount` items, and whose delta against that point is `ds`. */
  ghost predicate DeltaIs<T>(n: Stack<T>, oldGen: int, oldCount: nat, ds: seq<T>) {
    HoldsAncestor(n, oldGen, oldCount) && Delta(States(n.layers), oldGen, oldCount) == ds
  }

  /** N's delta against O is exactly the items N pushed since O, provided
      N still holds O's newest generation. */
  lemma {:induction false} DeltaOfPushes<T>(o: Stack<T>, ns: seq<T>)
    requires Valid(o) && o.maxLayers > 0 && o.maxLength > 0
    requires AppendStacks.PushAll(o, ns).Success?
    requires var n := AppendStacks.PushAll(o, ns).value.stack;
             |n.layers| > 0 && n.layers[|n.layers| - 1].generation <= o.layers[0].generation
    ensures DeltaIs(AppendStacks.PushAll(o, ns).value.stack, o.layers[0].generation, |o.layers[0].items|, ns)
    decreases |ns|
  {
    var og, oc := o.layers[0].generation, |o.layers[0].items|;
    if |ns| == 0 {
      assert AppendStacks.PushAll(o, ns) == Success(Pushed(o, []));
      ValidCountsDown(o);
      DeltaAtFront(o.layers);
      assert DeltaIs(o, og, oc, ns);
    } else {
      var init := ns[..|ns| - 1];
      PushAllLast(o, ns);
      var before := AppendStacks.PushAll(o, init).value;
      var last := AppendStacks.Push(before.stack, ns[|ns| - 1]).value;
      assert ValidStep(before.stack, last.stack, last.pruned);
      DeltaOfPushes(o, init);
      DeltaOfLastPush(o, ns);
    }
  }

  /** The step of `DeltaOfPushes`: the last push moves the delta on by the
      last item. */
  lemma DeltaOfLastPush<T>(o: Stack<T>, ns: seq<T>)
    requires Valid(o) && o.maxLayers > 0 && o.maxLength > 0 && |ns| > 0
    requires AppendStacks.PushAll(o, ns).Success?
    requires var n := AppendStacks.PushAll(o, ns).value.stack;
             |n.layers| > 0 && n.layers[|n.layers| - 1].generation <= o.layers[0].generation
    requires AppendStacks.PushAll(o, ns[..|ns| - 1]).Success?
    requires DeltaIs(AppendStacks.PushAll(o, ns[..|ns| - 1]).value.stack, o.layers[0].generation,
                     |o.layers[0].items|, ns[..|ns| - 1])
    ensures DeltaIs(AppendStacks.PushAll(o, ns).value.stack, o.layers[0].generation, |o.layers[0].items|, ns)
  {
    var init, x := ns[..|ns| - 1], ns[|ns| - 1];
    DropLast(ns);
    PushAllLast(o, ns);
    var before := AppendStacks.PushAll(o, init).value;
    var last := AppendStacks.Push(before.stack, x).value;
    assert AppendStacks.PushAll(o, ns).value.stack == last.stack;
    DeltaPush(before.stack, x, o.layers[0].generation, |o.layers[0].items|, init);
  }

  /** Nothing pushed since the ancestor: its front layer is held and the
      delta is empty. */
  lemma DeltaAtFront<T>(ls: seq<Layer<T>>)
    requires |ls| > 0 && CountsDownFrom(States(ls), ls[0].generation)
    ensures HoldsAncestorIn(ls, ls[0].generation, |ls[0].items|)
    ensures Delta(States(ls), ls[0].generation, |ls[0].items|) == []
  {
    var fs := States(ls);
    CountsDownTail(fs, ls[0].generation);
    DeltaSplit(fs, ls[0].generation, ls[0].generation, |ls[0].items|);
    assert fs[0].items == ls[0].items;
    assert fs[..0] == [];
    assert fs[|fs| - 1] == StateOf(ls[|ls| - 1]);
  }

  /** One replay turn on the untruncated list agrees with one `push` on
      the stack that holds its first `max_layers` layers: while the front
      holds at most `max_length` items the `==` test and `push`'s `>=`
      test coincide. */
  lemma ReplayPushStep<T>(s: Stack<T>, fs: seq<LayerState<T>>, x: T)
    requires Valid(s) && s.maxLayers > 0 && s.maxLength > 0
    requires |fs| > 0 && |fs[0].items| <= s.maxLength
    requires States(s.layers) == fs[..Min(s.maxLayers, |fs|)]
    requires AppendStacks.Push(s, x).Success?
    ensures var fs' := ReplayOne(fs, s.maxLength, x);
            && |fs'[0].items| <= s.maxLength
            && States(AppendStacks.Push(s, x).value.stack.layers) == fs'[..Min(s.maxLayers, |fs'|)]
  {
    var p := AppendStacks.Push(s, x).value;
    var front := s.layers[0];
    assert StateOf(front) == fs[0];
    assert front.maxLength == s.maxLength;
    if Full(front) {
      ReplayOpenStep(s.layers, p.stack.layers, p.pruned, fs, s.maxLayers, s.maxLength, x);
    } else {
      ReplayExtendStep(s.layers, p.stack.layers, p.pruned, fs, s.maxLayers, s.maxLength, x);
    }
  }

  /** The replay turn that opens a new front generation. */
  lemma ReplayOpenStep<T>(ls: seq<Layer<T>>, ts: seq<Layer<T>>, pruned: seq<Layer<T>>,
                          fs: seq<LayerState<T>>, maxLayers: nat, maxLength: nat, x: T)
    requires maxLayers > 0 && maxLength > 0 && |fs| > 0
    requires States(ls) == fs[..Min(maxLayers, |fs|)]
    requires |fs[0].items| == maxLength
    requires ts + pruned == [Layer(maxLength, fs[0].generation + 1, [x])] + ls
    requires |ts| == Min(maxLayers, |ls| + 1)
    ensures var fs' := ReplayOne(fs, maxLength, x);
            && |fs'[0].items| <= maxLength
            && States(ts) == fs'[..Min(maxLayers, |fs'|)]
  {
    var newFront := Layer(maxLength, fs[0].generation + 1, [x]);
    var fs' := [LayerState(fs[0].generation + 1, [x])] + fs;
    assert ReplayOne(fs, maxLength, x) == fs';
    var grown := [newFront] + ls;
    assert ts == grown[..|ts|];
    StatesAppend([newFront], ls);
    StatesSlice(grown, 0, |ts|);
    assert States(grown) == [StateOf(newFront)] + States(ls);
    assert |ts| == Min(maxLayers, |fs'|);
    assert States(ts) == fs'[..|ts|];
  }

  /** The replay turn that lands in the front layer. */
  lemma ReplayExtendStep<T>(ls: seq<Layer<T>>, ts: seq<Layer<T>>, pruned: seq<Layer<T>>,
                            fs: seq<LayerState<T>>, maxLayers: nat, maxLength: nat, x: T)
    requires maxLayers > 0 && |fs| > 0 && |ls| > 0
    requires States(ls) == fs[..Min(maxLayers, |fs|)]
    requires |fs[0].items| < maxLength
    requires ts + pruned == [ls[0].(items := ls[0].items + [x])] + ls[1..]
    requires |ts| == Min(maxLayers, |ls|)
    ensures var fs' := ReplayOne(fs, maxLength, x);
            && |fs'[0].items| <= maxLength
            && States(ts) == fs'[..Min(maxLayers, |fs'|)]
  {
    var front' := ls[0].(items := ls[0].items + [x]);
    var fs' := [fs[0].(items := fs[0].items + [x])] + fs[1..];
    assert ReplayOne(fs, maxLength, x) == fs';
    assert StateOf(ls[0]) == fs[0];
    assert ts == [front'] + ls[1..];
    StatesAppend([front'], ls[1..]);
    StatesSlice(ls, 1, |ls|);
    assert Min(maxLayers, |fs'|) == |ls|;
    assert fs'[..|ls|] == [StateOf(front')] + fs[1..|ls|];
  }

  /** Replaying items onto a valid stack's snapshot and cutting to
      `max_layers` gives the snapshot of pushing them one by one. */
  lemma {:induction false} ReplayIsPush<T>(c: Stack<T>, ys: seq<T>)
    requires Valid(c) && c.maxLayers > 0 && c.maxLength > 0
    ensures AppendStacks.PushAll(c, ys).Success?
    ensures var fs := Replay(States(c.layers), c.maxLength, ys);
            && |fs[0].items| <= c.maxLength
            && States(AppendStacks.PushAll(c, ys).value.stack.layers) == fs[..Min(c.maxLayers, |fs|)]
    decreases |ys|
  {
    var fs := States(c.layers);
    if |ys| == 0 {
      PushAllKeepsValid(c, ys);
      assert AppendStacks.PushAll(c, ys) == Success(Pushed(c, []));
      assert Replay(fs, c.maxLength, ys) == fs;
      assert fs[0] == StateOf(c.layers[0]);
      assert Min(c.maxLayers, |fs|) == |fs|;
      assert fs[..|fs|] == fs;
    } else {
      var init, y := ys[..|ys| - 1], ys[|ys| - 1];
      DropLast(ys);
      ReplayIsPush(c, init);
      PushAllKeepsValid(c, init);
      var before := AppendStacks.PushAll(c, init).value;
      PushKeepsValid(before.stack, y);
      var last := AppendStacks.Push(before.stack, y).value;
      PushAllSnoc(c, init, y);
      var replayed := Replay(fs, c.maxLength, init);
      ReplayPushStep(before.stack, replayed, y);
      assert AppendStacks.PushAll(c, ys).value.stack == last.stack;
      assert Replay(fs, c.maxLength, ys) == ReplayOne(replayed, c.maxLength, y);
    }
  }

  /** The merge of two append-only histories: when C and N both come from
      O by pushes and neither has pruned O's newest generation, the merge
      succeeds and yields exactly C with N's pushes applied on top. */
  lemma MergeOfAppends<T>(o: Stack<T>, cs: seq<T>, ns: seq<T>)
    requires Valid(o) && o.maxLayers > 0 && o.maxLength > 0
    requires AppendStacks.PushAll(o, cs).Success? && AppendStacks.PushAll(o, ns).Success?
    requires var c := AppendStacks.PushAll(o, cs).value.stack;
             |c.layers| > 0 && c.layers[|c.layers| - 1].generation <= o.layers[0].generation
    requires var n := AppendStacks.PushAll(o, ns).value.stack;
             |n.layers| > 0 && n.layers[|n.layers| - 1].generation <= o.layers[0].generation
    ensures AppendStacks.PushAll(AppendStacks.PushAll(o, cs).value.stack, ns).Success?
    ensures var c := AppendStacks.PushAll(o, cs).value.stack;
            var n := AppendStacks.PushAll(o, ns).value.stack;
            && ResolveConflict(GetState(o), GetState(c), GetState(n))
               == Success(GetState(AppendStacks.PushAll(c, ns).value.stack))
            && ResolveConflictChecked(GetState(o), GetState(c), GetState(n))
               == Success(GetState(AppendStacks.PushAll(c, ns).value.stack))
  {
    var c := AppendStacks.PushAll(o, cs).value.stack;
    var n := AppendStacks.PushAll(o, ns).value.stack;
    PushAllKeepsValid(o, cs);
    PushAllKeepsValid(o, ns);
    PushAllKeepsValid(c, ns);
    DeltaOfPushes(o, ns);
    ReplayIsPush(c, ns);
    var og, oc := o.layers[0].generation, |o.layers[0].items|;
    var O, C, N := GetState(o), GetState(c), GetState(n);
    assert Resolvable(O, C, N);
    assert O.layers[0].generation == og && |O.layers[0].items| == oc;
    assert Delta(N.layers, og, oc) == ns;
  }
}

=== FILE: pushhistory.dfy ===
/** The state an `AppendStack` reaches from the constructor after a run of
    pushes, in closed form: with `L`-item layers and room for `K` layers,
    after `n` pushes the front generation is `G = ceil(n / L) - 1`, the
    window holds the newest `min(K, G + 1)` blocks of `L` items, and the
    pruner has received the oldest `max(0, G + 1 - K)` blocks, in order. */
module PushHistory {
  import opened Errors
  import opened Sequences
  import opened Layers
  import opened AppendStacks

  /** Where block `g` of `L`-item blocks starts: `g * L`, counted up one
      block at a time so that the proofs stay linear. */
  function Start(g: nat, L: nat): nat {
    if g == 0 then 0 else Start(g - 1, L) + L
  }

  lemma {:induction false} StartMono(a: nat, b: nat, L: nat)
    requires a <= b
    ensures Start(a, L) <= Start(b, L)
    decreases b
  {
    if a < b {
      StartMono(a, b - 1, L);
    }
  }

  lemma {:induction false} StartIsProduct(g: nat, L: nat)
    ensures Start(g, L) == g * L
    decreases g
  {
    if g > 0 {
      StartIsProduct(g - 1, L);
      assert g * L == (g - 1) * L + L;
    }
  }

  /** The items of generation `g`: block `g` of `L` items, cut short at
      the end of `xs` for the generation still being filled. */
  function Block<T>(xs: seq<T>, L: nat, g: nat): (r: seq<T>)
    ensures Start(g + 1, L) <= |xs| ==> |r| == L
  {
    xs[Min(Start(g, L), |xs|)..Min(Start(g + 1, L), |xs|)]
  }

  /** The layers held after the pushes: generations `G` down to
      `G - min(K, G + 1) + 1`, each with its block. */
  function Window<T>(xs: seq<T>, K: nat, L: nat, G: nat): (r: seq<Layer<T>>)
    ensures |r| == Min(K, G + 1)
    ensures forall j :: 0 <= j < |r| ==> r[j] == Layer(L, G - j, Block(xs, L, G - j))
  {
    seq(Min(K, G + 1), j requires 0 <= j < Min(K, G + 1) => Layer(L, G - j, Block(xs, L, G - j)))
  }

  /** The layers handed to the pruner, in call order: generations
      `0 .. G - K`. */
  function Evicted<T>(xs: seq<T>, K: nat, L: nat, G: nat): (r: seq<Layer<T>>)
    ensures |r| == Max(0, G + 1 - K)
    ensures forall j :: 0 <= j < |r| ==> r[j] == Layer(L, j, Block(xs, L, j))
  {
    seq(Max(0, G + 1 - K), j requires 0 <= j < Max(0, G + 1 - K) => Layer(L, j, Block(xs, L, j)))
  }

  /** `G` is the front generation after `|xs|` pushes. */
  predicate FrontGeneration(n: nat, L: nat, G: nat) {
    Start(G, L) < n <= Start(G + 1, L)
  }

  /** A complete block is not affected by later pushes. */
  lemma BlockStable<T>(xs: seq<T>, x: T, L: nat, g: nat)
    requires Start(g + 1, L) <= |xs|
    ensures Block(xs + [x], L, g) == Block(xs, L, g)
  {
  }

  /** The block being filled grows by the pushed item. */
  lemma BlockGrows<T>(xs: seq<T>, x: T, L: nat, g: nat)
    requires Start(g, L) <= |xs| < Start(g + 1, L)
    ensures Block(xs + [x], L, g) == Block(xs, L, g) + [x]
  {
  }

  /** A push that lands in the front layer. */
  lemma StepInPlace<T>(K: nat, L: nat, xs: seq<T>, x: T, G: nat)
    requires K > 0 && L > 0
    requires Start(G, L) < |xs| < Start(G + 1, L)
    ensures AppendStacks.Push(Stack(K, L, Window(xs, K, L, G)), x)
            == Success(Pushed(Stack(K, L, Window(xs + [x], K, L, G)), []))
    ensures Evicted(xs + [x], K, L, G) == Evicted(xs, K, L, G)
  {
    var s := Stack(K, L, Window(xs, K, L, G));
    var front := s.layers[0];
    WindowGrowsInPlace(K, L, xs, x, G);
    var grown := [front.(items := front.items + [x])] + s.layers[1..];
    var p := AppendStacks.Push(s, x).value;
    assert p.stack.layers + p.pruned == grown;
    assert |p.stack.layers| == Min(K, |s.layers|) == |grown|;
    assert p.pruned == [];
    assert p.stack.layers == grown;
  }

  /** In-place push on the window: the front block grows by `x` and the
      blocks behind it stay as they are. */
  lemma WindowGrowsInPlace<T>(K: nat, L: nat, xs: seq<T>, x: T, G: nat)
    requires K > 0 && L > 0
    requires Start(G, L) < |xs| < Start(G + 1, L)
    ensures var w := Window(xs, K, L, G);
            && |w| > 0 && !Full(w[0])
            && [w[0].(items := w[0].items + [x])] + w[1..] == Window(xs + [x], K, L, G)
    ensures Evicted(xs + [x], K, L, G) == Evicted(xs, K, L, G)
  {
    var before := Window(xs, K, L, G);
    var front := before[0];
    assert Start(G + 1, L) == Start(G, L) + L;
    assert front.items == Block(xs, L, G) == xs[Start(G, L)..|xs|];
    BlockGrows(xs, x, L, G);
    var grown := [front.(items := front.items + [x])] + before[1..];
    var w := Window(xs + [x], K, L, G);
    assert |grown| == |w|;
    forall j | 0 <= j < |w|
      ensures grown[j] == w[j]
    {
      if j > 0 {
        assert grown[j] == before[j];
        StableBlockBelow(xs, x, L, G, G - j);
      }
    }
    var e0, e1 := Evicted(xs, K, L, G), Evicted(xs + [x], K, L, G);
    forall j | 0 <= j < |e0|
      ensures e0[j] == e1[j]
    {
      StableBlockBelow(xs, x, L, G, j);
    }
  }

  /** A block older than the front one, generation `g < G`, is complete and
      not affected by the push. */
  lemma StableBlockBelow<T>(xs: seq<T>, x: T, L: nat, G: nat, g: nat)
    requires Start(G, L) <= |xs|
    requires g < G
    ensures Block(xs + [x], L, g) == Block(xs, L, g)
  {
    StartMono(g + 1, G, L);
    BlockStable(xs, x, L, g);
  }

  /** The new front followed by the old window starts with the new
      window. */
  lemma WindowShifts<T>(K: nat, L: nat, xs: seq<T>, x: T, G: nat)
    requires L > 0
    requires |xs| == Start(G + 1, L)
    ensures var grown := [Layer(L, G + 1, [x])] + Window(xs, K, L, G);
            var w := Window(xs + [x], K, L, G + 1);
            |w| <= |grown| && grown[..|w|] == w
  {
    var before := Window(xs, K, L, G);
    assert Start(G + 2, L) == Start(G + 1, L) + L;
    BlockGrows(xs, x, L, G + 1);
    assert Block(xs, L, G + 1) == [];
    var grown := [Layer(L, G + 1, [x])] + before;
    var w := Window(xs + [x], K, L, G + 1);
    assert |w| <= |grown|;
    forall j | 0 <= j < |w|
      ensures grown[j] == w[j]
    {
      if j > 0 {
        assert grown[j] == before[j - 1];
        ShiftedLayer(xs, x, L, G, j);
      }
    }
    assert grown[..|w|] == w;
  }

  /** Layer `j` of the window after the push is layer `j - 1` before it. */
  lemma ShiftedLayer<T>(xs: seq<T>, x: T, L: nat, G: nat, j: nat)
    requires |xs| == Start(G + 1, L)
    requires 0 < j <= G + 1
    ensures Layer(L, G + 1 - j, Block(xs + [x], L, G + 1 - j)) == Layer(L, G - (j - 1), Block(xs, L, G - (j - 1)))
  {
    StartMono(G + 2 - j, G + 1, L);
    BlockStable(xs, x, L, G + 1 - j);
  }

  /** Layers already evicted stay evicted, unchanged. */
  lemma EvictedGrows<T>(K: nat, L: nat, xs: seq<T>, x: T, G: nat)
    requires K > 0
    requires |xs| == Start(G + 1, L)
    ensures var e0, e1 := Evicted(xs, K, L, G), Evicted(xs + [x], K, L, G + 1);
            |e0| <= |e1| && e0 == e1[..|e0|]
  {
    var e0, e1 := Evicted(xs, K, L, G), Evicted(xs + [x], K, L, G + 1);
    forall j | 0 <= j < |e0|
      ensures e0[j] == e1[j]
    {
      StableBlockBelow(xs, x, L, G + 1, j);
    }
  }

  /** What falls off the back of the window is the one newly evicted
      layer, if any. */
  lemma WindowSheds<T>(K: nat, L: nat, xs: seq<T>, x: T, G: nat)
    requires K > 0
    requires |xs| == Start(G + 1, L)
    ensures var grown := [Layer(L, G + 1, [x])] + Window(xs, K, L, G);
            var w := Window(xs + [x], K, L, G + 1);
            var e0, e1 := Evicted(xs, K, L, G), Evicted(xs + [x], K, L, G + 1);
            |w| <= |grown| && |e0| <= |e1| && grown[|w|..] == e1[|e0|..]
  {
    var before := Window(xs, K, L, G);
    var grown := [Layer(L, G + 1, [x])] + before;
    var e0, e1 := Evicted(xs, K, L, G), Evicted(xs + [x], K, L, G + 1);
    if G + 1 >= K {
      StartMono(G + 2 - K, G + 1, L);
      BlockStable(xs, x, L, G + 1 - K);
      assert grown[K..] == [before[K - 1]];
      assert e1[|e0|..] == [e1[G + 1 - K]];
    }
  }

  /** A push that opens generation `G + 1`, evicting generation `G + 1 - K`
      when the window is already full. */
  lemma StepNewLayer<T>(K: nat, L: nat, xs: seq<T>, x: T, G: nat)
    requires K > 0 && L > 0
    requires |xs| == Start(G + 1, L)
    ensures AppendStacks.Push(Stack(K, L, Window(xs, K, L, G)), x)
            == Success(Pushed(Stack(K, L, Window(xs + [x], K, L, G + 1)),
                              Evicted(xs + [x], K, L, G + 1)[|Evicted(xs, K, L, G)|..]))
    ensures Evicted(xs, K, L, G) <= Evicted(xs + [x], K, L, G + 1)
  {
    var s := Stack(K, L, Window(xs, K, L, G));
    assert |s.layers[0].items| == L;
    WindowShifts(K, L, xs, x, G);
    EvictedGrows(K, L, xs, x, G);
    WindowSheds(K, L, xs, x, G);
    var grown := [Layer(L, G + 1, [x])] + s.layers;
    var w := Window(xs + [x], K, L, G + 1);
    var p := AppendStacks.Push(s, x).value;
    assert p.stack.layers + p.pruned == grown;
    assert |p.stack.layers| == |w|;
    assert p.stack.layers == grown[..|w|];
    assert p.pruned == grown[|w|..];
  }

  /** The state after the pushes of `xs` is the closed form for `G`. */
  ghost predicate ClosedForm<T>(K: nat, L: nat, xs: seq<T>, G: nat) {
    AppendStacks.PushAll(Init(K, L), xs)
    == Success(Pushed(Stack(K, L, Window(xs, K, L, G)), Evicted(xs, K, L, G)))
  }

  lemma FirstPush<T>(K: nat, L: nat, x: T)
    requires K > 0 && L > 0
    ensures ClosedForm(K, L, [x], 0)
  {
    assert [x][..0] == [];
    assert Start(1, L) == L;
    assert Block([x], L, 0) == [x];
    var w := Window([x], K, L, 0);
    assert |w| == 1 && w[0] == Layer(L, 0, [x]);
    assert w == [Layer(L, 0, [x])];
    assert Evicted([x], K, L, 0) == [];
  }

  lemma InPlaceSnoc<T>(K: nat, L: nat, xs: seq<T>, x: T, G: nat)
    requires K > 0 && L > 0
    requires Start(G, L) < |xs| < Start(G + 1, L)
    requires ClosedForm(K, L, xs, G)
    ensures ClosedForm(K, L, xs + [x], G)
  {
    StepInPlace(K, L, xs, x, G);
    AppendStacks.PushAllSnoc(Init(K, L), xs, x);
    var p := AppendStacks.PushAll(Init(K, L), xs).value;
    var q := AppendStacks.Push(p.stack, x).value;
    assert q.pruned == [];
    assert p.pruned + q.pruned == Evicted(xs + [x], K, L, G);
    assert AppendStacks.PushAll(Init(K, L), xs + [x]) == Success(Pushed(q.stack, p.pruned + q.pruned));
  }

  lemma NewLayerSnoc<T>(K: nat, L: nat, xs: seq<T>, x: T, G: nat)
    requires K > 0 && L > 0
    requires |xs| == Start(G + 1, L)
    requires ClosedForm(K, L, xs, G)
    ensures ClosedForm(K, L, xs + [x], G + 1)
  {
    StepNewLayer(K, L, xs, x, G);
    var e0, e1 := Evicted(xs, K, L, G), Evicted(xs + [x], K, L, G + 1);
    var p := AppendStacks.PushAll(Init(K, L), xs).value;
    assert p == Pushed(Stack(K, L, Window(xs, K, L, G)), e0);
    var q := AppendStacks.Push(p.stack, x).value;
    assert q == Pushed(Stack(K, L, Window(xs + [x], K, L, G + 1)), e1[|e0|..]);
    AppendStacks.PushAllSnoc(Init(K, L), xs, x);
    assert e0 + e1[|e0|..] == e1;
    assert AppendStacks.PushAll(Init(K, L), xs + [x]) == Success(Pushed(q.stack, p.pruned + q.pruned));
  }

  lemma {:induction false} ClosedFormHolds<T>(K: nat, L: nat, xs: seq<T>, G: nat)
    requires K > 0 && L > 0
    requires FrontGeneration(|xs|, L, G)
    ensures ClosedForm(K, L, xs, G)
    decreases |xs|
  {
    var init, x := xs[..|xs| - 1], xs[|xs| - 1];
    DropLast(xs);
    if |init| == 0 {
      assert G == 0;
      FirstPush(K, L, x);
    } else if Start(G, L) < |init| {
      ClosedFormHolds(K, L, init, G);
      InPlaceSnoc(K, L, init, x, G);
    } else {
      var G' := G - 1;
      assert |init| == Start(G' + 1, L) == Start(G', L) + L;
      ClosedFormHolds(K, L, init, G');
      NewLayerSnoc(K, L, init, x, G');
      assert G' + 1 == G;
    }
  }

  /** The closed form: from the constructor, pushing `xs` with `G` the
      front generation leaves exactly `Window` in the stack and has handed
      exactly `Evicted` to the pruner. */
  lemma PushesFromInit<T>(K: nat, L: nat, xs: seq<T>, G: nat)
    requires K > 0 && L > 0
    requires FrontGeneration(|xs|, L, G)
    ensures AppendStacks.PushAll(Init(K, L), xs)
            == Success(Pushed(Stack(K, L, Window(xs, K, L, G)), Evicted(xs, K, L, G)))
  {
    ClosedFormHolds(K, L, xs, G);
  }

  /** The front generation is `ceil(n / L) - 1`, that is `(n - 1) / L`. */
  lemma FrontGenerationIsCeiling(n: nat, L: nat)
    requires n > 0 && L > 0
    ensures FrontGeneration(n, L, (n - 1) / L)
  {
    var q, r := (n - 1) / L, (n - 1) % L;
    assert n - 1 == q * L + r;
    StartIsProduct(q, L);
    StartIsProduct(q + 1, L);
    assert (q + 1) * L == q * L + L;
  }

  /** The evicted blocks are the consecutive full blocks of `L` items. */
  lemma EvictedBlocks<T>(K: nat, L: nat, xs: seq<T>, G: nat)
    requires K > 0
    requires FrontGeneration(|xs|, L, G)
    ensures var ps := Evicted(xs, K, L, G);
            forall j :: 0 <= j < |ps| ==>
              && ps[j].generation == j
              && (j + 1) * L <= |xs|
              && ps[j].items == xs[j * L..(j + 1) * L]
  {
    var ps := Evicted(xs, K, L, G);
    forall j | 0 <= j < |ps|
      ensures (j + 1) * L <= |xs| && ps[j].items == xs[j * L..(j + 1) * L]
    {
      StartMono(j + 1, G, L);
      StartIsProduct(j, L);
      StartIsProduct(j + 1, L);
    }
  }

  /** After the pushes of `xs` from the constructor the stack holds
      `min(K, G + 1)` layers, the newest of generation `G`, and the pruner
      was called `max(0, G + 1 - K)` times, with generations 0, 1, 2, ...
      and the consecutive full blocks of `L` items. */
  ghost predicate Counts<T>(K: nat, L: nat, xs: seq<T>, G: nat) {
    var p := AppendStacks.PushAll(Init(K, L), xs);
    p.Success? && Tally(p.value, K, L, xs, G)
  }

  /** The counts of `Counts`, about one push result. */
  ghost predicate Tally<T>(p: Pushed<T>, K: nat, L: nat, xs: seq<T>, G: nat) {
    && |p.stack.layers| == Min(K, G + 1)
    && |p.stack.layers| > 0
    && p.stack.layers[0].generation == G
    && |p.pruned| == Max(0, G + 1 - K)
    && forall j :: 0 <= j < |p.pruned| ==>
         && p.pruned[j].generation == j
         && (j + 1) * L <= |xs|
         && p.pruned[j].items == xs[j * L..(j + 1) * L]
  }

  lemma PushCountsAt<T>(K: nat, L: nat, xs: seq<T>, G: nat)
    requires K > 0 && L > 0
    requires FrontGeneration(|xs|, L, G)
    ensures Counts(K, L, xs, G)
  {
    PushesFromInit(K, L, xs, G);
    ClosedFormTally(K, L, xs, G);
  }

  /** The closed form has the counts. */
  lemma ClosedFormTally<T>(K: nat, L: nat, xs: seq<T>, G: nat)
    requires K > 0
    requires FrontGeneration(|xs|, L, G)
    ensures Tally(Pushed(Stack(K, L, Window(xs, K, L, G)), Evicted(xs, K, L, G)), K, L, xs, G)
  {
    var w := Window(xs, K, L, G);
    var e := Evicted(xs, K, L, G);
    var t := Pushed(Stack(K, L, w), e);
    assert t.stack.layers == w && t.pruned == e;
    assert |w| == Min(K, G + 1) > 0;
    assert w[0].generation == G;
    assert |e| == Max(0, G + 1 - K);
    EvictedBlocks(K, L, xs, G);
  }

  /** The counting properties: after `n >= 1` pushes the front generation
      is `ceil(n / L) - 1`, that is `(n - 1) / L`, and `Counts` holds for
      it. */
  lemma PushCounts<T>(K: nat, L: nat, xs: seq<T>)
    requires K > 0 && L > 0 && |xs| > 0
    ensures Counts(K, L, xs, (|xs| - 1) / L)
  {
    FrontGenerationIsCeiling(|xs|, L);
    PushCountsAt(K, L, xs, (|xs| - 1) / L);
  }
}

=== FILE: scenarios.dfy ===
/** The concrete cases exercised by the repository's unit tests, stated
    about the model. Where a test's objects matter only by position the
    lemma is generic in the item type; where the test compares values,
    integers stand for its objects. */
module Scenarios {
  import opened Errors
  import opened Sequences
  import opened Layers
  import opened AppendStacks
  import StackMerge
  import PushHistory
  import Archives

  function Frame<T>(f: LayerState<T>): seq<Entry<T>> {
    Tagged(f.generation, Layers.Iterate(f.items))
  }

  lemma EntriesOne<T>(f: LayerState<T>)
    ensures Entries([f]) == Frame(f)
  {
    assert [f][1..] == [];
  }

  lemma EntriesTwo<T>(f: LayerState<T>, g: LayerState<T>)
    ensures Entries([f, g]) == Frame(f) + Frame(g)
  {
    assert [f, g][1..] == [g];
    EntriesOne(g);
  }

  lemma FrameOfOne<T>(g: int, a: T)
    ensures Frame(LayerState(g, [a])) == [Entry(g, 0, a)]
  {
    assert Layers.Iterate([a]) == [(0, a)];
  }

  lemma FrameOfTwo<T>(g: int, a: T, b: T)
    ensures Frame(LayerState(g, [a, b])) == [Entry(g, 1, b), Entry(g, 0, a)]
  {
    assert Layers.Iterate([a, b]) == [(1, b), (0, a)];
  }

  lemma FrameOfThree<T>(g: int, a: T, b: T, c: T)
    ensures Frame(LayerState(g, [a, b, c])) == [Entry(g, 2, c), Entry(g, 1, b), Entry(g, 0, a)]
  {
    assert Layers.Iterate([a, b, c]) == [(2, c), (1, b), (0, a)];
  }

  /** A layer of two accepts two pushes, refuses the third with
      `LayerFull`, and still iterates over the first two. */
  lemma LayerOverflow<T>(a: T, b: T, c: T)
    ensures var l := Layers.PushAll(Layer(2, 0, []), [a, b]);
            && l.Success?
            && Layers.Push(l.value, c) == Failure(LayerFull)
            && Layers.Iterate(l.value.items) == [(1, b), (0, a)]
  {
    var items := Layers.PushAll(Layer(2, 0, []), [a, b]).value.items;
    assert items == [a, b];
    assert items[..1] == [a];
  }

  /** Three pushes into a default layer iterate newest first, and `newer(0)`
      stops before index 0; one push yields the single pair (0, a), and a
      layer holding only index 0 has nothing newer. */
  lemma LayerIterateAndNewer<T>(a: T, b: T, c: T)
    ensures var l := Layers.PushAll(Layer(DefaultMaxLength, 0, []), [a, b, c]);
            && l.Success?
            && Layers.Iterate(l.value.items) == [(2, c), (1, b), (0, a)]
            && Layers.Newer(l.value, 0) == [(2, c), (1, b)]
    ensures var one := Layers.Push(Layer(DefaultMaxLength, 0, []), a);
            && one == Success(Layer(DefaultMaxLength, 0, [a]))
            && Layers.Iterate(one.value.items) == [(0, a)]
            && Layers.Newer(one.value, 0) == []
    ensures Layers.Newer<T>(Layer(DefaultMaxLength, 0, []), 0) == []
  {
    var l := Layers.PushAll(Layer(DefaultMaxLength, 0, []), [a, b, c]).value;
    assert l.items == [a, b, c];
    var it := Layers.Iterate(l.items);
    assert it == [(2, c), (1, b), (0, a)];
    var above := IndexAbove<T>(0);
    assert above(it[0]) && above(it[1]) && !above(it[2]);
    TakeWhileStopsAt(it, above, 2);
    assert Layers.Iterate([a]) == [(0, a)];
  }

  /** The constructor's defaults and its empty iteration and snapshot. */
  lemma StackDefaults<T>()
    ensures var s := Init<T>(DefaultMaxLayers, DefaultMaxLength);
            && s.maxLayers == 10 && s.maxLength == 100
            && AppendStacks.Iterate(s) == []
            && AppendStacks.Newer(s, 0, 0) == []
            && GetState(s) == Snapshot(10, 100, [LayerState(0, [])])
  {
  }

  lemma ThreePushesInTwos<T>(a: T, b: T, c: T)
    ensures AppendStacks.PushAll(Init<T>(DefaultMaxLayers, 2), [a, b, c])
            == Success(Pushed(Stack(DefaultMaxLayers, 2, [Layer(2, 1, [c]), Layer(2, 0, [a, b])]), []))
  {
    var xs := [a, b, c];
    assert PushHistory.Start(1, 2) == 2 && PushHistory.Start(2, 2) == 4;
    PushHistory.PushesFromInit(DefaultMaxLayers, 2, xs, 1);
    WindowOfThree(a, b, c);
  }

  lemma WindowOfThree<T>(a: T, b: T, c: T)
    ensures PushHistory.Window([a, b, c], DefaultMaxLayers, 2, 1) == [Layer(2, 1, [c]), Layer(2, 0, [a, b])]
    ensures PushHistory.Evicted([a, b, c], DefaultMaxLayers, 2, 1) == []
  {
    var xs := [a, b, c];
    assert PushHistory.Start(1, 2) == 2 && PushHistory.Start(2, 2) == 4;
    assert PushHistory.Block(xs, 2, 1) == [c];
    assert PushHistory.Block(xs, 2, 0) == [a, b];
  }

  lemma TwoLayerReads<T>(a: T, b: T, c: T)
    ensures var s := Stack(DefaultMaxLayers, 2, [Layer(2, 1, [c]), Layer(2, 0, [a, b])]);
            && AppendStacks.Iterate(s) == [Entry(1, 0, c), Entry(0, 1, b), Entry(0, 0, a)]
            && AppendStacks.Newer(s, 0, 0) == [Entry(1, 0, c), Entry(0, 1, b)]
  {
    var s := Stack(DefaultMaxLayers, 2, [Layer(2, 1, [c]), Layer(2, 0, [a, b])]);
    var f, g := LayerState(1, [c]), LayerState(0, [a, b]);
    assert States(s.layers) == [f, g];
    EntriesTwo(f, g);
    FrameOfOne(1, c);
    FrameOfTwo(0, a, b);
    var it := AppendStacks.Iterate(s);
    assert it == [Entry(1, 0, c), Entry(0, 1, b), Entry(0, 0, a)];
    var above := CursorAbove<T>(0, 0);
    assert above(it[0]) && above(it[1]) && !above(it[2]);
    TakeWhileStopsAt(it, above, 2);
  }

  /** One push into a default stack: one layer, iterated as (0, 0, a). */
  lemma StackPushOne<T>(a: T)
    ensures var p := AppendStacks.PushAll(Init<T>(DefaultMaxLayers, DefaultMaxLength), [a]);
            && p.Success?
            && |p.value.stack.layers| == 1
            && AppendStacks.Iterate(p.value.stack) == [Entry(0, 0, a)]
  {
    var xs := [a];
    PushHistory.PushesFromInit(DefaultMaxLayers, DefaultMaxLength, xs, 0);
    assert PushHistory.Block(xs, DefaultMaxLength, 0) == xs;
    assert PushHistory.Window(xs, DefaultMaxLayers, DefaultMaxLength, 0) == [Layer(DefaultMaxLength, 0, xs)];
    var s := Stack(DefaultMaxLayers, DefaultMaxLength, [Layer(DefaultMaxLength, 0, xs)]);
    assert States(s.layers) == [LayerState(0, xs)];
    EntriesOne(LayerState(0, xs));
    FrameOfOne(0, a);
  }

  /** After one push, nothing is newer than the cursor (0, 0) that names it. */
  lemma StackNewerMiss<T>(a: T)
    ensures var p := AppendStacks.PushAll(Init<T>(DefaultMaxLayers, DefaultMaxLength), [a]);
            p.Success? && AppendStacks.Newer(p.value.stack, 0, 0) == []
  {
    StackPushOne(a);
    var it := AppendStacks.Iterate(AppendStacks.PushAll(Init<T>(DefaultMaxLayers, DefaultMaxLength), [a]).value.stack);
    assert !CursorAbove<T>(0, 0)(it[0]);
    TakeWhileStopsAt(it, CursorAbove(0, 0), 0);
  }

  /** Three pushes with layers of two items: two layers, generations 1
      and 0, iterated newest first; `newer(0, 0)` stops before (0, 0). */
  lemma StackAcrossLayers<T>(a: T, b: T, c: T)
    ensures var p := AppendStacks.PushAll(Init<T>(DefaultMaxLayers, 2), [a, b, c]);
            && p.Success?
            && |p.value.stack.layers| == 2
            && p.value.stack.layers[0].generation == 1
            && p.value.stack.layers[1].generation == 0
            && AppendStacks.Iterate(p.value.stack) == [Entry(1, 0, c), Entry(0, 1, b), Entry(0, 0, a)]
            && AppendStacks.Newer(p.value.stack, 0, 0) == [Entry(1, 0, c), Entry(0, 1, b)]
  {
    ThreePushesInTwos(a, b, c);
    TwoLayerReads(a, b, c);
  }

  lemma ThreePushesInOne<T>(a: T, b: T, c: T)
    ensures AppendStacks.PushAll(Init<T>(DefaultMaxLayers, DefaultMaxLength), [a, b, c])
            == Success(Pushed(Stack(DefaultMaxLayers, DefaultMaxLength, [Layer(DefaultMaxLength, 0, [a, b, c])]), []))
  {
    var xs := [a, b, c];
    PushHistory.PushesFromInit(DefaultMaxLayers, DefaultMaxLength, xs, 0);
    assert PushHistory.Block(xs, DefaultMaxLength, 0) == xs;
    assert PushHistory.Window(xs, DefaultMaxLayers, DefaultMaxLength, 0) == [Layer(DefaultMaxLength, 0, xs)];
  }

  lemma OneLayerReads<T>(a: T, b: T, c: T)
    ensures AppendStacks.Newer(Stack(DefaultMaxLayers, DefaultMaxLength, [Layer(DefaultMaxLength, 0, [a, b, c])]), 0, 0)
            == [Entry(0, 2, c), Entry(0, 1, b)]
  {
    var xs := [a, b, c];
    var s := Stack(DefaultMaxLayers, DefaultMaxLength, [Layer(DefaultMaxLength, 0, xs)]);
    assert States(s.layers) == [LayerState(0, xs)];
    EntriesOne(LayerState(0, xs));
    FrameOfThree(0, a, b, c);
    var it := AppendStacks.Iterate(s);
    assert it == [Entry(0, 2, c), Entry(0, 1, b), Entry(0, 0, a)];
    var above := CursorAbove<T>(0, 0);
    assert above(it[0]) && above(it[1]) && !above(it[2]);
    TakeWhileStopsAt(it, above, 2);
  }

  /** Three pushes into one default layer: `newer(0, 0)` yields indices 2
      and 1 of generation 0. */
  lemma StackNewerHit<T>(a: T, b: T, c: T)
    ensures var p := AppendStacks.PushAll(Init<T>(DefaultMaxLayers, DefaultMaxLength), [a, b, c]);
            p.Success? && AppendStacks.Newer(p.value.stack, 0, 0) == [Entry(0, 2, c), Entry(0, 1, b)]
  {
    ThreePushesInOne(a, b, c);
    OneLayerReads(a, b, c);
  }

  /** `range(1001)`, stated without a literal. */
  ghost predicate IsRange(xs: seq<int>, n: nat) {
    |xs| == n && forall i :: 0 <= i < n ==> xs[i] == i
  }

  lemma ThousandPushes(xs: seq<int>)
    requires IsRange(xs, 1001)
    ensures AppendStacks.PushAll(Init<int>(4, DefaultMaxLength), xs)
            == Success(Pushed(Stack(4, DefaultMaxLength, PushHistory.Window(xs, 4, DefaultMaxLength, 10)),
                              PushHistory.Evicted(xs, 4, DefaultMaxLength, 10)))
  {
    assert PushHistory.Start(10, DefaultMaxLength) == 1000;
    assert PushHistory.Start(11, DefaultMaxLength) == 1100;
    PushHistory.PushesFromInit(4, DefaultMaxLength, xs, 10);
  }

  lemma ThousandWindow(xs: seq<int>)
    requires IsRange(xs, 1001)
    ensures var w := PushHistory.Window(xs, 4, DefaultMaxLength, 10);
            var found := Entries(States(w));
            && |w| == 4
            && w[0].generation == 10 && w[1].generation == 9
            && w[2].generation == 8 && w[3].generation == 7
            && |found| == 301
            && found[0] == Entry(10, 0, 1000)
            && found[300] == Entry(7, 0, 700)
  {
    var w := PushHistory.Window(xs, 4, DefaultMaxLength, 10);
    var fs := States(w);
    assert PushHistory.Start(7, DefaultMaxLength) == 700;
    assert PushHistory.Start(8, DefaultMaxLength) == 800;
    assert PushHistory.Start(9, DefaultMaxLength) == 900;
    assert PushHistory.Start(10, DefaultMaxLength) == 1000;
    assert PushHistory.Start(11, DefaultMaxLength) == 1100;
    assert fs[0].items == xs[1000..1001];
    assert |fs[1].items| == 100 && |fs[2].items| == 100;
    assert fs[3].items == xs[700..800];
    assert |Contents(fs[3..])| == 100 by {
      assert fs[3..][1..] == [];
    }
    assert fs[2..][1..] == fs[3..];
    assert |Contents(fs[2..])| == 200;
    assert fs[1..][1..] == fs[2..];
    assert |Contents(fs[1..])| == 300;
    assert |Contents(fs)| == 301;
    EntriesFirst(fs);
    EntriesLast(fs);
  }

  lemma ThousandEvicted(xs: seq<int>)
    requires IsRange(xs, 1001)
    ensures var ps := PushHistory.Evicted(xs, 4, DefaultMaxLength, 10);
            && |ps| == 7
            && (forall j :: 0 <= j < 7 ==> ps[j].generation == j && |ps[j].items| == 100)
            && (forall j, k :: 0 <= j < 7 && 0 <= k < 100 ==> ps[j].items[k] == 100 * j + k)
  {
    var ps := PushHistory.Evicted(xs, 4, DefaultMaxLength, 10);
    assert PushHistory.FrontGeneration(1001, DefaultMaxLength, 10) by {
      assert PushHistory.Start(10, DefaultMaxLength) == 1000;
      assert PushHistory.Start(11, DefaultMaxLength) == 1100;
    }
    PushHistory.EvictedBlocks(4, DefaultMaxLength, xs, 10);
    forall j, k | 0 <= j < 7 && 0 <= k < 100
      ensures ps[j].items[k] == 100 * j + k
    {
      assert ps[j].items == xs[j * 100..(j + 1) * 100];
      assert ps[j].items[k] == xs[j * 100 + k];
    }
  }

  /** `test_push_trimming_layers_with_archive_utility`: 1001 pushes with
      four layers of 100 keep generations 10 down to 7 (301 entries, from
      (10, 0, 1000) to (7, 0, 700)) and hand generations 0 to 6 to the
      pruner, generation `j` holding `range(100 * j, 100 * j + 100)`. */
  lemma TrimmingLayers(xs: seq<int>)
    requires IsRange(xs, 1001)
    ensures var p := AppendStacks.PushAll(Init<int>(4, DefaultMaxLength), xs);
            && p.Success?
            && var found := AppendStacks.Iterate(p.value.stack);
               && |p.value.stack.layers| == 4
               && p.value.stack.layers[0].generation == 10
               && p.value.stack.layers[1].generation == 9
               && p.value.stack.layers[2].generation == 8
               && p.value.stack.layers[3].generation == 7
               && |found| == 301
               && found[0] == Entry(10, 0, 1000)
               && found[300] == Entry(7, 0, 700)
               && |p.value.pruned| == 7
               && (forall j :: 0 <= j < 7 ==> p.value.pruned[j].generation == j && |p.value.pruned[j].items| == 100)
               && (forall j, k :: 0 <= j < 7 && 0 <= k < 100 ==> p.value.pruned[j].items[k] == 100 * j + k)
  {
    ThousandPushes(xs);
    ThousandWindow(xs);
    ThousandEvicted(xs);
  }

  lemma TenPushesInThrees<T>(xs: seq<T>)
    requires |xs| == 10
    ensures AppendStacks.PushAll(Init<T>(2, 3), xs)
            == Success(Pushed(Stack(2, 3, PushHistory.Window(xs, 2, 3, 3)), PushHistory.Evicted(xs, 2, 3, 3)))
  {
    assert PushHistory.Start(3, 3) == 9 && PushHistory.Start(4, 3) == 12;
    PushHistory.PushesFromInit(2, 3, xs, 3);
  }

  lemma WindowOfTen<T>(xs: seq<T>)
    requires |xs| == 10
    ensures PushHistory.Window(xs, 2, 3, 3) == [Layer(3, 3, [xs[9]]), Layer(3, 2, xs[6..9])]
  {
    assert PushHistory.Start(2, 3) == 6 && PushHistory.Start(3, 3) == 9 && PushHistory.Start(4, 3) == 12;
    assert PushHistory.Block(xs, 3, 3) == [xs[9]];
    assert PushHistory.Block(xs, 3, 2) == xs[6..9];
  }

  /** `test___getstate___empty`: a default stack's snapshot is
      `(10, 100, [(0, [])])`, and restoring it gives that stack back. */
  lemma GetStateEmpty<T>()
    ensures var s := Init<T>(DefaultMaxLayers, DefaultMaxLength);
            && GetState(s) == Snapshot(10, 100, [LayerState(0, [])])
            && SetState(GetState(s)) == Success(s)
  {
    StateRoundTrip(Init<T>(DefaultMaxLayers, DefaultMaxLength));
  }

  /** `test___getstate___filled`: ten pushes with two layers of three
      leave `(2, 3, [(3, [9]), (2, [6, 7, 8])])` for the items 0 to 9. */
  lemma GetStateFilled<T>(xs: seq<T>)
    requires |xs| == 10
    ensures var p := AppendStacks.PushAll(Init<T>(2, 3), xs);
            && p.Success?
            && GetState(p.value.stack) == Snapshot(2, 3, [LayerState(3, [xs[9]]), LayerState(2, xs[6..9])])
  {
    TenPushesInThrees(xs);
    WindowOfTen(xs);
    var w := [Layer(3, 3, [xs[9]]), Layer(3, 2, xs[6..9])];
    assert States(w) == [LayerState(3, [xs[9]]), LayerState(2, xs[6..9])];
  }

  /** The snapshot of `test___setstate__` rebuilds two layers of capacity 3. */
  lemma SetStateLayers<T>(a: T, b: T, c: T, d: T)
    ensures SetState(Snapshot(2, 3, [LayerState(3, [d]), LayerState(2, [a, b, c])]))
            == Success(Stack(2, 3, [Layer(3, 3, [d]), Layer(3, 2, [a, b, c])]))
  {
    var fs := [LayerState(3, [d]), LayerState(2, [a, b, c])];
    var r := SetState(Snapshot(2, 3, fs));
    assert |fs[0].items| <= 3 && |fs[1].items| <= 3;
    assert r.Success?;
    var ls := r.value.layers;
    assert States(ls) == fs;
    assert |ls| == 2;
    assert ls[0] == Layer(3, 3, [d]) by {
      assert StateOf(ls[0]) == fs[0] && ls[0].maxLength == 3;
    }
    assert ls[1] == Layer(3, 2, [a, b, c]) by {
      assert StateOf(ls[1]) == fs[1] && ls[1].maxLength == 3;
    }
    assert ls == [Layer(3, 3, [d]), Layer(3, 2, [a, b, c])];
  }

  lemma RebuiltReads<T>(a: T, b: T, c: T, d: T)
    ensures AppendStacks.Iterate(Stack(2, 3, [Layer(3, 3, [d]), Layer(3, 2, [a, b, c])]))
            == [Entry(3, 0, d), Entry(2, 2, c), Entry(2, 1, b), Entry(2, 0, a)]
  {
    var f, g := LayerState(3, [d]), LayerState(2, [a, b, c]);
    assert States([Layer(3, 3, [d]), Layer(3, 2, [a, b, c])]) == [f, g];
    EntriesTwo(f, g);
    FrameOfOne(3, d);
    FrameOfThree(2, a, b, c);
  }

  /** `test___setstate__`: the snapshot `(2, 3, [(3, [9]), (2, [6, 7, 8])])`
      rebuilds a stack that iterates (3, 0, 9), (2, 2, 8), (2, 1, 7),
      (2, 0, 6). */
  lemma SetStateFilled<T>(a: T, b: T, c: T, d: T)
    ensures var r := SetState(Snapshot(2, 3, [LayerState(3, [d]), LayerState(2, [a, b, c])]));
            && r.Success?
            && r.value.maxLayers == 2 && r.value.maxLength == 3
            && AppendStacks.Iterate(r.value) == [Entry(3, 0, d), Entry(2, 2, c), Entry(2, 1, b), Entry(2, 0, a)]
  {
    SetStateLayers(a, b, c, d);
    RebuiltReads(a, b, c, d);
  }

  /** The ancestor used by every merge test: `(2, 3, [(3, [9]), (2, [6, 7, 8])])`. */
  function Ancestor(): Snapshot<int> {
    Snapshot(2, 3, [LayerState(3, [9]), LayerState(2, [6, 7, 8])])
  }

  /** The four unresolvable merges: a new `max_layers`, a new
      `max_length`, a committed state and a new state that have moved past
      the ancestor's newest generation. */
  lemma MergeConflicts()
    ensures StackMerge.ResolveConflict(Ancestor(), Ancestor(),
              Snapshot(3, 3, [LayerState(3, [9]), LayerState(2, [6, 7, 8])]))
            == Failure(Conflict(ConflictingMaxLayers))
    ensures StackMerge.ResolveConflict(Ancestor(), Ancestor(),
              Snapshot(2, 4, [LayerState(3, [9]), LayerState(2, [6, 7, 8])]))
            == Failure(Conflict(ConflictingMaxLength))
    ensures StackMerge.ResolveConflict(Ancestor(),
              Snapshot(2, 3, [LayerState(5, [29]), LayerState(4, [26, 27, 28])]),
              Snapshot(2, 3, [LayerState(3, [9, 10]), LayerState(2, [6, 7, 8])]))
            == Failure(Conflict(CommittedObsoletesOld))
    ensures StackMerge.ResolveConflict(Ancestor(),
              Snapshot(2, 3, [LayerState(3, [9, 10]), LayerState(2, [6, 7, 8])]),
              Snapshot(2, 3, [LayerState(5, [29]), LayerState(4, [26, 27, 28])]))
            == Failure(Conflict(NewObsoletesOld))
  {
  }

  /** `test__p_resolveConflict_no_added_layers`. */
  lemma MergeNoAddedLayers()
    ensures StackMerge.ResolveConflict(Ancestor(),
              Snapshot(2, 3, [LayerState(3, [9, 10]), LayerState(2, [6, 7, 8])]),
              Snapshot(2, 3, [LayerState(3, [9, 11]), LayerState(2, [6, 7, 8])]))
            == Success(Snapshot(2, 3, [LayerState(3, [9, 10, 11]), LayerState(2, [6, 7, 8])]))
  {
    var n := [LayerState(3, [9, 11]), LayerState(2, [6, 7, 8])];
    var c := [LayerState(3, [9, 10]), LayerState(2, [6, 7, 8])];
    assert StackMerge.Delta(n[1..], 3, 1) == [];
    assert StackMerge.Delta(n, 3, 1) == [11];
    assert StackMerge.Replay(c, 3, [11]) == StackMerge.ReplayOne(StackMerge.Replay(c, 3, []), 3, 11);
    assert c[1..] == [LayerState(2, [6, 7, 8])] && c[0].items + [11] == [9, 10, 11];
    assert StackMerge.Replay(c, 3, [11]) == [LayerState(3, [9, 10, 11]), LayerState(2, [6, 7, 8])];
    var m := [LayerState(3, [9, 10, 11]), LayerState(2, [6, 7, 8])];
    assert m[..Min(2, |m|)] == m;
  }

  /** `test__p_resolveConflict_added_committed_layer`. */
  lemma MergeAddedCommittedLayer()
    ensures StackMerge.ResolveConflict(Ancestor(),
              Snapshot(2, 3, [LayerState(4, [12]), LayerState(3, [9, 10, 11])]),
              Snapshot(2, 3, [LayerState(3, [9, 13]), LayerState(2, [6, 7, 8])]))
            == Success(Snapshot(2, 3, [LayerState(4, [12, 13]), LayerState(3, [9, 10, 11])]))
  {
    var n := [LayerState(3, [9, 13]), LayerState(2, [6, 7, 8])];
    var c := [LayerState(4, [12]), LayerState(3, [9, 10, 11])];
    assert StackMerge.Delta(n[1..], 3, 1) == [];
    assert StackMerge.Delta(n, 3, 1) == [13];
    assert StackMerge.Replay(c, 3, [13]) == StackMerge.ReplayOne(StackMerge.Replay(c, 3, []), 3, 13);
    assert c[1..] == [LayerState(3, [9, 10, 11])] && c[0].items + [13] == [12, 13];
    assert StackMerge.Replay(c, 3, [13]) == [LayerState(4, [12, 13]), LayerState(3, [9, 10, 11])];
    var m := [LayerState(4, [12, 13]), LayerState(3, [9, 10, 11])];
    assert m[..Min(2, |m|)] == m;
  }

  /** N's delta against the ancestor in `test__p_resolveConflict_added_new_layer`:
      the tail of generation 3 and all of generation 4, oldest first. */
  lemma DeltaAddedNewLayer()
    ensures StackMerge.Delta([LayerState(4, [13, 14]), LayerState(3, [9, 11, 12])], 3, 1) == [11, 12, 13, 14]
  {
    var n := [LayerState(4, [13, 14]), LayerState(3, [9, 11, 12])];
    assert n[1..][1..] == [];
    assert StackMerge.Delta(n[1..][1..], 3, 1) == [];
    assert StackMerge.Delta(n[1..], 3, 1) == [11, 12];
  }

  /** The replay of that delta onto C fills generation 3 and opens 4. */
  lemma ReplayAddedNewLayer()
    ensures StackMerge.Replay([LayerState(3, [9, 10]), LayerState(2, [6, 7, 8])], 3, [11, 12, 13, 14])
            == [LayerState(4, [12, 13, 14]), LayerState(3, [9, 10, 11]), LayerState(2, [6, 7, 8])]
  {
    var c := [LayerState(3, [9, 10]), LayerState(2, [6, 7, 8])];
    var m1 := [LayerState(3, [9, 10, 11]), LayerState(2, [6, 7, 8])];
    var m2 := [LayerState(4, [12]), LayerState(3, [9, 10, 11]), LayerState(2, [6, 7, 8])];
    var m3 := [LayerState(4, [12, 13]), LayerState(3, [9, 10, 11]), LayerState(2, [6, 7, 8])];
    var m4 := [LayerState(4, [12, 13, 14]), LayerState(3, [9, 10, 11]), LayerState(2, [6, 7, 8])];
    ReplayFillsThree();
    ReplayOpensFour();
    ReplayFillsFour();
    ReplayThen(c, 3, [], [11], 11, c, m1);
    ReplayThen(c, 3, [11], [11, 12], 12, m1, m2);
    ReplayThen(c, 3, [11, 12], [11, 12, 13], 13, m2, m3);
    ReplayThen(c, 3, [11, 12, 13], [11, 12, 13, 14], 14, m3, m4);
  }

  /** Item 11 fills generation 3; item 12 then opens generation 4. */
  lemma ReplayFillsThree()
    ensures StackMerge.ReplayOne([LayerState(3, [9, 10]), LayerState(2, [6, 7, 8])], 3, 11)
            == [LayerState(3, [9, 10, 11]), LayerState(2, [6, 7, 8])]
  {
    var c := [LayerState(3, [9, 10]), LayerState(2, [6, 7, 8])];
    assert c[1..] == [LayerState(2, [6, 7, 8])] && c[0].items + [11] == [9, 10, 11];
  }

  lemma ReplayOpensFour()
    ensures StackMerge.ReplayOne([LayerState(3, [9, 10, 11]), LayerState(2, [6, 7, 8])], 3, 12)
            == [LayerState(4, [12]), LayerState(3, [9, 10, 11]), LayerState(2, [6, 7, 8])]
  {
  }

  /** Items 13 and 14 land in generation 4. */
  lemma ReplayFillsFour()
    ensures StackMerge.ReplayOne([LayerState(4, [12]), LayerState(3, [9, 10, 11]), LayerState(2, [6, 7, 8])], 3, 13)
            == [LayerState(4, [12, 13]), LayerState(3, [9, 10, 11]), LayerState(2, [6, 7, 8])]
    ensures StackMerge.ReplayOne([LayerState(4, [12, 13]), LayerState(3, [9, 10, 11]), LayerState(2, [6, 7, 8])], 3, 14)
            == [LayerState(4, [12, 13, 14]), LayerState(3, [9, 10, 11]), LayerState(2, [6, 7, 8])]
  {
    var m2 := [LayerState(4, [12]), LayerState(3, [9, 10, 11]), LayerState(2, [6, 7, 8])];
    var m3 := [LayerState(4, [12, 13]), LayerState(3, [9, 10, 11]), LayerState(2, [6, 7, 8])];
    assert m2[1..] == m3[1..] && m2[0].items + [13] == [12, 13];
    assert m3[1..] == [LayerState(3, [9, 10, 11]), LayerState(2, [6, 7, 8])] && m3[0].items + [14] == [12, 13, 14];
  }

  /** One more replayed item, one more turn of the replay loop. */
  lemma ReplayThen<T>(fs: seq<LayerState<T>>, maxLength: nat, ys: seq<T>, zs: seq<T>, y: T,
                      prev: seq<LayerState<T>>, next: seq<LayerState<T>>)
    requires |fs| > 0 && StackMerge.Replay(fs, maxLength, ys) == prev
    requires |prev| > 0 && StackMerge.ReplayOne(prev, maxLength, y) == next
    requires zs == ys + [y]
    ensures StackMerge.Replay(fs, maxLength, zs) == next
  {
    assert zs[..|ys|] == ys;
  }

  /** `test__p_resolveConflict_added_new_layer`: the replay opens a third
      layer and the oldest is cut off by `max_layers`. */
  lemma MergeAddedNewLayer()
    ensures StackMerge.ResolveConflict(Ancestor(),
              Snapshot(2, 3, [LayerState(3, [9, 10]), LayerState(2, [6, 7, 8])]),
              Snapshot(2, 3, [LayerState(4, [13, 14]), LayerState(3, [9, 11, 12])]))
            == Success(Snapshot(2, 3, [LayerState(4, [12, 13, 14]), LayerState(3, [9, 10, 11])]))
  {
    var m := [LayerState(4, [12, 13, 14]), LayerState(3, [9, 10, 11]), LayerState(2, [6, 7, 8])];
    DeltaAddedNewLayer();
    ReplayAddedNewLayer();
    assert m[..Min(2, |m|)] == [LayerState(4, [12, 13, 14]), LayerState(3, [9, 10, 11])];
  }

  /** `ArchiveTests.test___iter___filled`: layers 0 (three items) and 1
      (two items) iterate as (1, 1), (1, 0), (0, 2), (0, 1), (0, 0), the
      items in reverse order of creation. */
  lemma ArchiveIteration<T>(a: T, b: T, c: T, d: T, e: T)
    ensures var r0 := Archives.AddLayer(Archives.Empty<T>(), 0, [a, b, c]);
            && r0.Success?
            && var r1 := Archives.AddLayer(r0.value, 1, [d, e]);
               && r1.Success?
               && Archives.Iterate(r1.value)
                  == [Entry(1, 1, e), Entry(1, 0, d), Entry(0, 2, c), Entry(0, 1, b), Entry(0, 0, a)]
  {
    var r0 := Archives.AddLayer(Archives.Empty<T>(), 0, [a, b, c]).value;
    var r1 := Archives.AddLayer(r0, 1, [d, e]).value;
    assert Archives.Iterate(r0) == Frame(LayerState(0, [a, b, c])) by {
      assert States(r0.layers) == [LayerState(0, [a, b, c])];
      EntriesOne(LayerState(0, [a, b, c]));
    }
    FrameOfThree(0, a, b, c);
    FrameOfTwo(1, d, e);
  }

  /** `test_addLayer_older`: a second layer of generation 0 is refused. */
  lemma ArchiveAddOlder<T>()
    ensures var r := Archives.AddLayer(Archives.Empty<T>(), 0, []);
            r.Success? && Archives.AddLayer(r.value, 0, []) == Failure(StaleGeneration)
  {
  }

  /** The two archive merges: equal committed and new generations keep the
      committed state, different ones conflict. Heads are opaque tokens. */
  lemma ArchiveMerges()
    ensures Archives.ResolveConflict(Archives.ArchiveState(-1, 0), Archives.ArchiveState(0, 1), Archives.ArchiveState(0, 2))
            == Success(Archives.ArchiveState(0, 1))
    ensures Archives.ResolveConflict(Archives.ArchiveState(-1, 0), Archives.ArchiveState(0, 1), Archives.ArchiveState(1, 2))
            == Failure(Conflict(ConflictingGenerations))
  {
  }
}

=== FILE: sequences.dfy ===
/** Generic sequence helpers: the early-stopping filter used by every
    `newer` generator, its plain filtering counterpart, and reversal. */
module Sequences {

  function Min(a: int, b: int): int {
    if a <= b then a else b
  }

  function Max(a: int, b: int): int {
    if a <= b then b else a
  }

  lemma AppendAssoc<A>(a: seq<A>, b: seq<A>, c: seq<A>)
    ensures (a + b) + c == a + (b + c)
  {
  }

  /** A non-empty sequence is its front followed by its last element. */
  lemma DropLast<A>(s: seq<A>)
    requires |s| > 0
    ensures s == s[..|s| - 1] + [s[|s| - 1]]
  {
  }

  /** `a` is a trailing part of `b`. */
  ghost predicate IsSuffix<A>(a: seq<A>, b: seq<A>) {
    |a| <= |b| && b[|b| - |a|..] == a
  }

  /** The longest prefix of `s` whose elements all satisfy `p`: a loop over
      `s` that yields while `p` holds and breaks at the first failure. */
  function TakeWhile<A>(s: seq<A>, p: A -> bool): (r: seq<A>)
    ensures r <= s
    ensures forall j :: 0 <= j < |r| ==> p(r[j])
    ensures |r| < |s| ==> !p(s[|r|])
  {
    if |s| == 0 || !p(s[0]) then [] else [s[0]] + TakeWhile(s[1..], p)
  }

  /** The early-stopping loop stops exactly at the first element that
      fails `p`. */
  lemma TakeWhileStopsAt<A>(s: seq<A>, p: A -> bool, k: nat)
    requires k <= |s|
    requires forall j :: 0 <= j < k ==> p(s[j])
    requires k < |s| ==> !p(s[k])
    ensures TakeWhile(s, p) == s[..k]
  {
  }

  /** The elements of `s` that satisfy `p`, in order. */
  function Filter<A>(s: seq<A>, p: A -> bool): (r: seq<A>)
    ensures |r| <= |s|
    ensures forall j :: 0 <= j < |r| ==> r[j] in s && p(r[j])
    ensures forall j :: 0 <= j < |s| && p(s[j]) ==> s[j] in r
  {
    if |s| == 0 then []
    else
      var rest := Filter(s[1..], p);
      assert forall j :: 1 <= j < |s| ==> s[j] == s[1..][j - 1];
      (if p(s[0]) then [s[0]] else []) + rest
  }

  /** Once `p` fails along `s` it never holds again. */
  ghost predicate StaysFalse<A>(s: seq<A>, p: A -> bool) {
    forall i, j :: 0 <= i < j < |s| && p(s[j]) ==> p(s[i])
  }

  lemma {:induction false} FilterNone<A>(s: seq<A>, p: A -> bool)
    requires forall j :: 0 <= j < |s| ==> !p(s[j])
    ensures Filter(s, p) == []
  {
    if |s| > 0 {
      FilterNone(s[1..], p);
    }
  }

  /** When `p` can only go from true to false along `s`, stopping early
      loses nothing: the early-stopping loop is the filter. */
  lemma {:induction false} TakeWhileIsFilter<A>(s: seq<A>, p: A -> bool)
    requires StaysFalse(s, p)
    ensures TakeWhile(s, p) == Filter(s, p)
  {
    if |s| == 0 {
    } else if !p(s[0]) {
      forall j | 0 <= j < |s[1..]|
        ensures !p(s[1..][j])
      {
        assert s[1..][j] == s[j + 1];
      }
      FilterNone(s[1..], p);
    } else {
      assert StaysFalse(s[1..], p) by {
        forall i, j | 0 <= i < j < |s[1..]| && p(s[1..][j])
          ensures p(s[1..][i])
        {
          assert s[1..][j] == s[j + 1] && s[1..][i] == s[i + 1];
        }
      }
      TakeWhileIsFilter(s[1..], p);
    }
  }

  function Reverse<A>(s: seq<A>): (r: seq<A>)
    ensures |r| == |s|
    ensures forall j :: 0 <= j < |s| ==> r[j] == s[|s| - 1 - j]
  {
    if |s| == 0 then [] else [s[|s| - 1]] + Reverse(s[..|s| - 1])
  }

  lemma ReverseAppend<A>(a: seq<A>, b: seq<A>)
    ensures Reverse(a + b) == Reverse(b) + Reverse(a)
  {
    assert |Reverse(a + b)| == |Reverse(b) + Reverse(a)|;
    forall j | 0 <= j < |a + b|
      ensures Reverse(a + b)[j] == (Reverse(b) + Reverse(a))[j]
    {
      if j < |b| {
        assert (a + b)[|a + b| - 1 - j] == b[|b| - 1 - j];
      } else {
        assert (a + b)[|a + b| - 1 - j] == a[|a| - 1 - (j - |b|)];
      }
    }
  }
}
